=== FILE: README.md ===
# Trip Planner: plan consumption, request store and worker, in Dafny

This project models the request path of the Trip Planner system and proves
properties about it. The path has three parts:

- **The trip planner page** (`frontend-ui/src/pages/TripPlannerPage.js`). Given the
  plan payload it holds, the page derives:
  - the valid days and the map centre;
  - the per-slot map markers;
  - the merged route polyline and the guards around drawing it;
  - the preview slot of each day card.

  It also runs the interest toggle, the submit handler and the status-polling
  effect. The page's state is `(requestId, plan, loading, history)`, plus
  whether a poll interval is running.
- **The API server's request store** (`api-server/app/routes.py`,
  `api-server/app/db_queries.py`). It is a map from request id to row:
  - `submit` validates the body, inserts a pending row and publishes a job;
  - `get_status` reports a row and hands out a finished result once, deleting the row.
- **The worker's `process_task`** (`logic-worker/worker/task_processor.py`). It
  builds the prompt, assembles the plan from the model's reply and the route
  lookup, and marks the row done.

**Shared data model.** All three parts share one JSON value type (`JsValue.Value`). It comes with
JavaScript's truthiness, `!= null`, `||`, `?.` and `?.[0]`, stated exactly.
Where the page would throw a TypeError, the model gives `Throws`:

- reading a field of `null`;
- calling `.filter`, `.reduce` or `.flatMap` on something that is not an array.

Network replies, the polyline decoder, the language model, the directions
lookup and Python's `str()` on non-strings are parameters, and nothing is
assumed about them.

**`EndToEnd` module.** This module puts the parts together. It proves how the
parts interact as written:

- **Submit never polls.** The server's submit reply carries no request id, so
  the page's handler takes its last branch. The spinner stops, and no plan ever
  arrives (`SubmittedPlanNeverArrives`).
- **Done plans arrive.** A done row is returned as the bare plan, with no
  `status` field. The page still takes it when `days` is truthy
  (`DonePlanDelivered`).
- **Error plans are lost.** The plan written when the model's reply is not
  JSON has neither `status` nor `days`. So the tick that reads it changes
  nothing, although the row is already deleted. Every later tick gets the 404
  body `{"detail": "Not Found"}`, and the page polls for ever with the spinner
  on (`ErrorPlanLost`).

With the id added to the submit reply (`Routes.SubmitTripWithId`), the whole
round trip delivers exactly the plan the worker wrote (`RoundTripWithId`), when
the model answers with an object whose `days` is truthy. An error plan is still
lost with the id added, as `ErrorPlanLost` shows.

The page imports `getStatus` and `getHistory` from `frontend-ui/src/api.js`,
but that file exports `checkStatus` and no history call. The model treats the
status reply as an input. The composition in `EndToEnd` takes the status call
to behave as `checkStatus`, which parses the body whatever the HTTP status is.

**Facts about the code that the model keeps:**

- The polyline decoder and the bounds computation are library calls.
- Polling has no bound on the number of attempts.
- A new submit cannot cancel polling: the search form is only rendered while
  `requestId` is falsy, and `requestId` is never reset.
- `get_status` returns a done row's plan as it is, without adding a `status`
  field.
- The "My Trips" table stays clickable while polling. A click turns the
  spinner off and shows the saved trip while the interval keeps running
  (`Lifecycle.OpenTripWhilePolling`).

## Model

| member | source | states |
|---|---|---|
| JsValue.Or | frontend-ui/src/pages/TripPlannerPage.js:178 | JavaScript's logical or is the left operand when truthy and the right one otherwise; the result is truthy iff either operand is |
| Seqs.FilterUnique | frontend-ui/src/pages/TripPlannerPage.js:177-180 | the filter specification (an order-preserving subsequence keeping exactly the kept values' multiplicities) has at most one solution, so the contracts below pin the filtered list down completely |
| PlanView.FilterValidDays | frontend-ui/src/pages/TripPlannerPage.js:177-180 | the `validDays` filter throws exactly when some day is null or undefined; otherwise it is the order-preserving subsequence of exactly the days that pass the test |
| PlanView.ValidDays | frontend-ui/src/pages/TripPlannerPage.js:177-180 | `[]` when the plan or its `days` is missing; a TypeError when `days` is present but not an array; otherwise as `FilterValidDays` |
| PlanView.ValidDayCases | frontend-ui/src/pages/TripPlannerPage.js:178-179 | a truthy `coords` alone decides validity, even with a null `lat`; only a falsy `coords` falls back to `coordinates`; only `lat != null` is tested |
| PlanView.ZeroLatIsValid | frontend-ui/src/pages/TripPlannerPage.js:179 | any day whose chosen record has `lat` 0 passes the test (it is `!= null`, not truthiness) and centres at latitude 0 |
| PlanView.LngIgnored | frontend-ui/src/pages/TripPlannerPage.js:178-179 | changing or removing the `lng` of any record of a day never changes whether the day passes the test |
| PlanView.PlanCenter | frontend-ui/src/pages/TripPlannerPage.js:184-189 | the centre is the chosen record's `(lat, lng)` of the first day that passes the filter, exactly `[20, 0]` when none does, and throws exactly when `validDays` does |
| PlanView.DayMarkers | frontend-ui/src/pages/TripPlannerPage.js:511-527 | a day yields at most three markers |
| PlanView.DayMarkersFacts | frontend-ui/src/pages/TripPlannerPage.js:511-527 | one day's markers are exactly its placed slots, each once, in morning, noon, evening order, all carrying that day's index |
| PlanView.DayFieldsIgnored | frontend-ui/src/pages/TripPlannerPage.js:512-513 | changing any day field other than the three slots (day-level `coords` or `coordinates` included) leaves the day's markers unchanged |
| PlanView.MarkersOf | frontend-ui/src/pages/TripPlannerPage.js:510-529 | the reduce throws exactly when some day is null or undefined, and yields at most three markers per day |
| PlanView.MarkersOfCorrect | frontend-ui/src/pages/TripPlannerPage.js:510-529 | every marker comes from a placed slot of its day, every placed (day, slot) has a marker, and markers are ordered day-major then morning, noon, evening |
| PlanView.PlanMarkers | frontend-ui/src/pages/TripPlannerPage.js:510-529 | a plan's markers are sound, complete and ordered for its days, and empty for a plan without a days array |
| PlanView.KeyInjective | frontend-ui/src/pages/TripPlannerPage.js:516 | two markers with the same key `day-{i}-{slot}` have the same day and slot |
| PlanView.MarkerKeysUnique | frontend-ui/src/pages/TripPlannerPage.js:516 | the React keys of a plan's markers are pairwise distinct |
| Decimal.Show | frontend-ui/src/pages/TripPlannerPage.js:516 | a day index renders as a non-empty string of decimal digits with no leading zero |
| Decimal.ParseShow | frontend-ui/src/pages/TripPlannerPage.js:516 | reading back the rendered index gives the index |
| PlanView.PreviewSlot | frontend-ui/src/pages/TripPlannerPage.js:576-578 | the `find` throws exactly on a null day; it picks the earliest slot with a truthy `image_url`, and none only when no slot has one |
| PlanView.Preview | frontend-ui/src/pages/TripPlannerPage.js:579 | the preview point is truthy, with a truthy `image_url`, exactly when some slot has an image, and it is then the record of the earliest slot (morning, afternoon, evening) that has one |
| RouteView.LegSteps | frontend-ui/src/pages/TripPlannerPage.js:535 | a leg contributes the elements of its `steps` array, nothing for a falsy `steps`, and a truthy non-array `steps` as one element |
| RouteView.FlatSteps | frontend-ui/src/pages/TripPlannerPage.js:535 | collecting steps succeeds exactly when no leg is null or undefined |
| RouteView.FlatStepsAppend | frontend-ui/src/pages/TripPlannerPage.js:535 | the steps of two runs of legs are the first run's steps followed by the second's (leg order is kept) |
| RouteView.FlatStepsSingle | frontend-ui/src/pages/TripPlannerPage.js:535 | a single non-null leg contributes exactly its own `steps || []`; with the concatenation law this fixes the steps of every list of legs |
| RouteView.DecodeAll | frontend-ui/src/pages/TripPlannerPage.js:536-538 | decoding all steps succeeds exactly when every step decodes |
| RouteView.DecodeAllAppend | frontend-ui/src/pages/TripPlannerPage.js:536-538 | the points of two runs of steps are the first run's points followed by the second's (step order is kept) |
| RouteView.DecodeAllCount | frontend-ui/src/pages/TripPlannerPage.js:536-538 | the merged list has exactly the sum of the per-step decoded lengths; nothing is de-duplicated |
| RouteView.DecodeAllSingle | frontend-ui/src/pages/TripPlannerPage.js:537 | a single step contributes exactly its own decoding |
| RouteView.RoutePointsOf | frontend-ui/src/pages/TripPlannerPage.js:532-538 | no points without a first route; none from a falsy `legs`; a TypeError for a truthy non-array `legs`; otherwise the decoded steps of the legs, with the same failures |
| RouteView.LaterRoutesIgnored | frontend-ui/src/pages/TripPlannerPage.js:532-534 | whatever else the plan holds, routes after `routes[0]` make no difference to the points |
| RouteView.RouteLayer | frontend-ui/src/pages/TripPlannerPage.js:540-555 | the route line is drawn, with the merged points, only when there are more than one of them |
| RouteView.FitBounds | frontend-ui/src/pages/TripPlannerPage.js:58-68 | the viewport is fitted, to exactly the given points, iff the list is non-empty |
| RouteView.DrawnRouteIsFitted | frontend-ui/src/pages/TripPlannerPage.js:540-552 | whenever the line is drawn, the map is fitted to exactly its points |
| InterestPicker.Without | frontend-ui/src/pages/TripPlannerPage.js:438 | removing an option keeps every other entry, in order and with its count, and removes every occurrence of the option |
| InterestPicker.Toggle | frontend-ui/src/pages/TripPlannerPage.js:430-442 | a disabled option changes nothing; a checked one is removed; an unchecked one is appended at the end |
| InterestPicker.ToggleKeepsNoDuplicates | frontend-ui/src/pages/TripPlannerPage.js:430-442 | a selection without duplicates stays without duplicates |
| InterestPicker.WithoutKeepsNoDuplicates | frontend-ui/src/pages/TripPlannerPage.js:438 | removal keeps a duplicate-free list duplicate-free |
| InterestPicker.ToggleKeepsCap | frontend-ui/src/pages/TripPlannerPage.js:433-441 | a selection of at most six stays at most six |
| InterestPicker.WithoutAbsent | frontend-ui/src/pages/TripPlannerPage.js:438 | removing an option that is not selected changes nothing |
| InterestPicker.WithoutAppend | frontend-ui/src/pages/TripPlannerPage.js:438-440 | removing an option just appended removes exactly what was appended |
| InterestPicker.AddThenRemove | frontend-ui/src/pages/TripPlannerPage.js:430-442 | checking then unchecking an unselected option restores the original list, at the cap as well (both clicks are then no-ops) |
| InterestPicker.RemoveThenAdd | frontend-ui/src/pages/TripPlannerPage.js:430-442 | unchecking then checking keeps the same options but moves that one to the end |
| InterestPicker.CapNeverDisables | frontend-ui/src/pages/TripPlannerPage.js:433 | with the six fixed options and no duplicates, no option is ever disabled |
| InterestPicker.ToggleStaysInOptions | frontend-ui/src/pages/TripPlannerPage.js:430-442 | toggling offered options only ever selects offered options |
| Lifecycle.SetRequestId | frontend-ui/src/pages/TripPlannerPage.js:83-105 | a changed id clears the running interval and starts a new one, with the spinner on, exactly when the new id is truthy; an unchanged id changes nothing |
| Lifecycle.RefreshHistory | frontend-ui/src/pages/TripPlannerPage.js:95-96 | a non-null history reply sets `history` to the reply's `history`, or `[]` when that is falsy, so it is always truthy; a failure or null reply leaves it |
| Lifecycle.PollTick | frontend-ui/src/pages/TripPlannerPage.js:86-103 | without an interval, nothing happens; a thrown or null reply stops polling and the spinner; a reply with status "done" or truthy `days` (an empty array counts) becomes the plan, stops polling and the spinner, and refreshes history; any other reply changes nothing; only a done reply changes the plan |
| Lifecycle.BeginSubmit | frontend-ui/src/pages/TripPlannerPage.js:142 | the spinner goes on before the request, nothing else changes |
| Lifecycle.SubmitReply | frontend-ui/src/pages/TripPlannerPage.js:148-165 | "done" with a trip shows the trip and stops the spinner; "submitted" with an id hands the id to the polling effect; anything else stops the spinner, plan and id untouched; a null reply throws and changes nothing |
| Lifecycle.HandleSubmit | frontend-ui/src/pages/TripPlannerPage.js:137-166 | a pending reply leaves the spinner on; an unrecognised reply turns it off with plan, id and polling untouched |
| Lifecycle.Step | frontend-ui/src/pages/TripPlannerPage.js:337-338 | a submit while `requestId` is truthy cannot happen (the form is not rendered) and changes nothing |
| Lifecycle.RunKeepsInv | frontend-ui/src/pages/TripPlannerPage.js:83-105 | over any run of submit and tick events, an interval only runs for a truthy id with the spinner on |
| Lifecycle.InitialKeepsInv | frontend-ui/src/pages/TripPlannerPage.js:49-56 | the page after mount runs no interval, and every page that submits and ticks reach from it keeps the invariant |
| Lifecycle.OpenTrip | frontend-ui/src/pages/TripPlannerPage.js:268-282 | a history-row click always ends with the spinner off; a non-null reply's `raw_plan` becomes the plan, a failed or null one leaves it; id, interval and history are untouched |
| Lifecycle.OpenTripWhilePolling | frontend-ui/src/pages/TripPlannerPage.js:268-282 | a click while an interval runs leaves it running with the spinner off, so the invariant does not hold once clicks are counted |
| Lifecycle.OpenTripThenTick | frontend-ui/src/pages/TripPlannerPage.js:86-103 | a trip opened while polling stays on screen until a completed reply replaces it |
| Lifecycle.NoPollingWithoutRequestId | frontend-ui/src/pages/TripPlannerPage.js:84 | without a submit reply carrying an id, no interval starts and the id never changes |
| Lifecycle.TicksAfterStopAreInert | frontend-ui/src/pages/TripPlannerPage.js:91 | once polling has stopped, ticks change nothing |
| RequestStore.InsertRequest | api-server/app/db_queries.py:24-33 | a new id gains a pending row with the given user, payload and no result, other rows untouched; an existing id fails |
| RequestStore.GetRequestById | api-server/app/db_queries.py:13-21 | None exactly when no row has the id, otherwise that row's status and result |
| RequestStore.ClearResponse | api-server/app/db_queries.py:36-39 | exactly the row with that id is removed |
| RequestStore.ClearThenGet | api-server/app/db_queries.py:36-39 | after the delete the id is not found, and other ids read as before |
| RequestStore.InsertThenGet | api-server/app/db_queries.py:24-33 | a fresh row reads back as pending with no result |
| RequestStore.InsertThenClear | api-server/app/db_queries.py:24-39 | deleting a row just inserted restores the table |
| Routes.ParseTripRequest | api-server/app/routes.py:17-21 | a body is accepted exactly when it is an object with string `start_location`, `start_date`, `end_date` and an `interests` that is absent (then `[]`) or a list of strings; the fields are taken as given |
| Routes.ParseDump | api-server/app/routes.py:29-34 | validating a dumped request gives the request back |
| Routes.SubmitTrip | api-server/app/routes.py:24-37 | an invalid body is a 422; a valid body is accepted exactly when the new id is not yet in the store, and then adds exactly one pending "guest" row under it, others untouched; a taken id is an insert failure; publishes the id, "guest" and the four fields; answers exactly `{"status": "submitted"}` with no id |
| Routes.SubmitTripWithId | api-server/app/routes.py:37 | the same transition and message, answering with `status` and the new `request_id` |
| Routes.GetStatus | api-server/app/routes.py:40-50 | no row: 404; a row not done: its status alone, store unchanged; a done row: its result as the whole body and the row deleted; a done row with no result: a server error, row kept |
| Routes.ReadOnce | api-server/app/routes.py:47-50 | a finished result is returned once, and asking again at once is a 404 |
| Routes.PendingPollIsPure | api-server/app/routes.py:45-46 | polling a row that is not done does not change the store and reports its status |
| Routes.SubmitThenStatus | api-server/app/routes.py:26-46 | right after a submit the new id reads as pending, and the reply holds only `status` |
| TaskProcessor.Join | logic-worker/worker/task_processor.py:20 | joining no items is empty and one item is that item |
| TaskProcessor.JoinAppend | logic-worker/worker/task_processor.py:20 | joining two non-empty lists puts exactly one separator between their joins |
| TaskProcessor.JoinLength | logic-worker/worker/task_processor.py:20 | the joined text is the items' total length plus two per separator |
| TaskProcessor.InterestsText | logic-worker/worker/task_processor.py:19-20 | a falsy or missing `interests` gives "no specific interests"; a non-empty list is joined iff all its items are strings; a string is joined by characters; a truthy number or boolean raises |
| TaskProcessor.InterestsOfList | logic-worker/worker/task_processor.py:20 | a non-empty list of strings is joined as given |
| TaskProcessor.Prompt | logic-worker/worker/task_processor.py:23-27 | the prompt's length is the four parts' lengths plus the fixed template text |
| TaskProcessor.PromptShape | logic-worker/worker/task_processor.py:23-27 | the prompt holds, in this order and at the offsets their lengths fix, "Plan a trip to " and the destination, " from " and the start date, " to " and the end date, " with interests: " and the interests text, ". " and the fixed instructions |
| TaskProcessor.ErrorPlan | logic-worker/worker/task_processor.py:34-35 | the plan for an unparsable reply has exactly `error` = "Invalid JSON from OpenAI" and `details` |
| TaskProcessor.AttachRoute | logic-worker/worker/task_processor.py:38-42 | only an object takes the route: it gains `google_route` (the route, or null when the lookup raised) and keeps its other fields; anything else ends the task |
| TaskProcessor.PlanFor | logic-worker/worker/task_processor.py:14-42 | a plan is built only for an object message with all five keys and joinable interests; a failed model call ends the task; an unparsable reply still yields the error plan; every plan built has a `google_route` |
| TaskProcessor.MarkDone | logic-worker/worker/task_processor.py:45-55 | the row with the id, and only it, becomes done with the plan, keeping owner and payload; no row, no change |
| TaskProcessor.MarkDoneIdempotent | logic-worker/worker/task_processor.py:47-55 | writing the same result twice is writing it once |
| TaskProcessor.MarkDoneOverwrites | logic-worker/worker/task_processor.py:47-55 | a later write replaces an earlier one |
| TaskProcessor.ProcessTask | logic-worker/worker/task_processor.py:7-58 | when no plan can be built the task ends with no write; otherwise a string id marks exactly its row done with the plan, a null id writes nothing, any other id ends the task |
| EndToEnd.SubmitNeverPolls | api-server/app/routes.py:37 | the server's submit reply leaves the page with the spinner off and no polling |
| EndToEnd.SubmittedPlanNeverArrives | frontend-ui/src/pages/TripPlannerPage.js:158-163 | after that submit, no run of ticks changes the page |
| EndToEnd.SubmitWithIdPolls | frontend-ui/src/pages/TripPlannerPage.js:158-159 | a reply carrying the id starts polling for exactly that id with the spinner on |
| EndToEnd.PendingTickWaits | api-server/app/routes.py:45-46 | while the row is pending, a tick changes neither page nor store |
| EndToEnd.DonePlanDelivered | api-server/app/routes.py:47-50 | a done plan with status "done" or truthy `days` becomes the page's plan on the next tick, polling stops and the row is gone |
| EndToEnd.ErrorPlanNotDone | logic-worker/worker/task_processor.py:34-42 | the stored error plan is not recognised as done by the page |
| EndToEnd.NotFoundNotDone | api-server/app/routes.py:43-44 | the 404 body is neither null nor a done plan |
| EndToEnd.PollsForeverWithoutRow | frontend-ui/src/pages/TripPlannerPage.js:90 | ticks for an id with no row leave the page polling unchanged for ever |
| EndToEnd.ErrorPlanLost | api-server/app/routes.py:47-50 | the tick that reads an error plan leaves the page unchanged while deleting the row, and every later tick does too |
| EndToEnd.JobMessageProcessed | api-server/app/routes.py:31-36 | the published job message is processable: unless the model call fails or returns a non-object, the new row becomes done with owner and request kept and a result with `google_route` |
| EndToEnd.WorkerWritesDonePlan | logic-worker/worker/task_processor.py:28-55 | when the model answers every prompt with an object whose `days` is truthy, the worker marks the new row done with a plan the page recognises, and reading it once restores the store |
| EndToEnd.RoundTripWithId | frontend-ui/src/pages/TripPlannerPage.js:83-105 | with the id in the submit reply, and when the model answers every prompt with an object whose `days` is truthy, submit, worker and one tick show exactly the plan the worker wrote, stop polling and the spinner, and leave the store as before the submit |

## Left out

- Rendering is left out because it is presentation: JSX, styles, dark mode, dropdown listeners, the date picker, and the Leaflet components and icon set-up.
- The polyline decoder (`@mapbox/polyline`) is a library. It is the parameter `decode`, and no property of the polyline encoding is claimed.
- `L.latLngBounds`, `map.fitBounds` and the `date-fns` formatting are library calls. Only the guards around them are modelled. The submit body, with its formatted dates, is an input.
- Timers and async are left out:
  - each interval tick is one step;
  - interleavings, such as a stale tick resolving after `clearInterval`, are not modelled;
  - `alert` and the console logging are not modelled. The logging effect (frontend-ui/src/pages/TripPlannerPage.js:71-79) also runs `route.legs?.[0]?.steps?.forEach(...)`. That throws a TypeError after render when the first leg's `steps` is truthy but not an array. `RouteView.LegSteps` treats such a value as one step, so the model draws that route while the page's effect crashes;
  - a rejected `submitTrip` promise has no handler in the page, so it is not modelled.
- The history fetch on user change (frontend-ui/src/pages/TripPlannerPage.js:125-131) is left out. It only sets `history`, through a call `api.js` does not define. The history-row click is modelled as `Lifecycle.OpenTrip`. It is a separate function, not an event of `Lifecycle.Run`, because it breaks the invariant that submits and ticks keep. Its reply, from `findUserTrip` (which `api.js` does not define either), is an input. The click's `await` is taken as one step, like a tick.
- The HTTP wrappers in `frontend-ui/src/api.js` are network I/O. Their replies are inputs.
- `LoginPage.js`, `App.js`, `DayPlan.js`, `MapView.js` and `TaskPoller.js` are left out. They are login or placeholder UI.
- Broker and database plumbing is I/O:
  - the Kafka producer and consumer;
  - the worker's consume loop;
  - the OpenAI and Google HTTP calls;
  - configuration and connections.

  A failure of `send_to_kafka` after the insert, which leaves a pending row and answers 500, is not modelled.
- JSON text in the `result` column and on the broker is represented by the document it encodes. Serialising and parsing are taken to give the document back. NaN and Infinity are not represented.
- Python's `str()` of a non-string value, used by `TaskProcessor.PyStr`, is the uninterpreted parameter `show`.
- TaskProcessor.InterestsText: a non-empty JSON object as `interests` is joined by its keys in Python. The model reports it as an exception, because map keys carry no order.
- TaskProcessor.ProcessTask: the `request_id` column is taken to be text. So a non-string, non-null id is a query error. The schema is not part of this model.
- RequestStore.InsertRequest: `request_id` is taken to be the table's key, so inserting an existing id fails. The schema is not part of this model.
- The tests in both services do not match the current code, so no property is drawn from them.

## Findings

| source | as written | input that shows it | evidently intended | confidence | as-written member | corrected member |
|---|---|---|---|---|---|---|
| api-server/app/routes.py:37 | `submit_trip` answers `{"status": "submitted"}` only, while the page polls only when the reply has a truthy `request_id` (frontend-ui/src/pages/TripPlannerPage.js:158-163) | the body `{"start_location": "Rome", "start_date": "2025-07-01", "end_date": "2025-07-05"}`: the row is created and the job published, but the page turns the spinner off and never asks for the result | answer `{"status": "submitted", "request_id": request_id}` (modelled as `Routes.SubmitTripWithId`) | high; not executed | EndToEnd.SubmittedPlanNeverArrives | EndToEnd.RoundTripWithId |

=== FILE: decimal.dfy ===
/** Decimal rendering of natural numbers, as a JavaScript template literal prints them. */
module Decimal {

  predicate IsDigit(c: char) {
    '0' <= c <= '9'
  }

  function Digit(d: nat): (c: char)
    requires d < 10
    ensures IsDigit(c)
  {
    ('0' as int + d) as char
  }

  function DigitValue(c: char): nat
    requires IsDigit(c)
  {
    c as int - '0' as int
  }

  /** The shortest decimal numeral of `n`: no sign, no leading zero. */
  function Show(n: nat): (s: string)
    ensures |s| >= 1
    ensures forall i :: 0 <= i < |s| ==> IsDigit(s[i])
    ensures |s| > 1 ==> s[0] != '0'
    decreases n
  {
    if n < 10 then [Digit(n)] else Show(n / 10) + [Digit(n % 10)]
  }

  /** Reads a numeral back, most significant digit first. */
  function Parse(s: string): nat
    requires forall i :: 0 <= i < |s| ==> IsDigit(s[i])
  {
    if |s| == 0 then 0 else Parse(s[..|s| - 1]) * 10 + DigitValue(s[|s| - 1])
  }

  lemma {:induction false} ParseShow(n: nat)
    ensures Parse(Show(n)) == n
    decreases n
  {
    var s := Show(n);
    if n < 10 {
      assert s[..0] == [];
    } else {
      ParseShow(n / 10);
      assert s[..|s| - 1] == Show(n / 10);
    }
  }

  lemma ShowInjective(m: nat, n: nat)
    requires Show(m) == Show(n)
    ensures m == n
  {
    ParseShow(m);
    ParseShow(n);
  }
}

=== FILE: end_to_end.dfy ===
/**
 The three parts put together: the page's handlers fed with the replies the
 API server gives over the store the worker writes. The status call is taken
 to be `checkStatus`, which parses the reply body whatever the status code.
 */
module EndToEnd {
  import opened JsValue
  import opened Optional
  import opened RequestStore
  import R = Routes
  import T = TaskProcessor
  import L = Lifecycle

  /**
   What the page's status call resolves to for a server answer: the JSON
   body for a 200 or a 404, and a rejection for the 500, whose body is plain
   text that `res.json()` cannot parse.
   */
  function Fetched(a: R.StatusResult): (r: L.StatusFetch)
    ensures a.Found? ==> r == L.StatusReply(a.body)
    ensures a.NotFound? ==> r == L.StatusReply(R.NotFoundBody)
    ensures a.ServerError? ==> r.StatusFailed?
  {
    match a
    case Found(body) => L.StatusReply(body)
    case NotFound => L.StatusReply(R.NotFoundBody)
    case ServerError => L.StatusFailed
  }

  /** One interval tick against the server: the page's new state and the store after the call. */
  function ServerTick(s: L.Page, store: Store, id: string, h: L.HistoryFetch): (r: (L.Page, Store))
    ensures r.1 == R.GetStatus(store, id).store
    ensures r.0 == L.PollTick(s, Fetched(R.GetStatus(store, id).result), h)
  {
    var answer := R.GetStatus(store, id);
    (L.PollTick(s, Fetched(answer.result), h), answer.store)
  }

  /**
   The submit reply the server actually sends, `{"status": "submitted"}`,
   takes the handler's last branch: the spinner goes off, no request id is
   kept, so no interval ever starts and the plan stays as it was.
   */
  lemma SubmitNeverPolls(s: L.Page, store: Store, body: Value, id: string, h: L.HistoryFetch)
    requires !Truthy(s.requestId) && !s.polling
    requires R.SubmitTrip(store, body, id).Accepted?
    ensures L.Step(s, L.Submit(R.SubmitTrip(store, body, id).response, h)) == s.(loading := false)
  {
  }

  /**
   After that submit, no run of ticks ever shows a plan: the page is the
   pre-submit page with the spinner off, however the server answers.
   */
  lemma {:induction false} SubmittedPlanNeverArrives(s: L.Page, store: Store, body: Value, id: string,
                                                     h: L.HistoryFetch, ticks: seq<L.Event>)
    requires !Truthy(s.requestId) && !s.polling
    requires R.SubmitTrip(store, body, id).Accepted?
    requires forall i :: 0 <= i < |ticks| ==> ticks[i].Tick?
    ensures L.Run(s, [L.Submit(R.SubmitTrip(store, body, id).response, h)] + ticks) == s.(loading := false)
  {
    var e := L.Submit(R.SubmitTrip(store, body, id).response, h);
    SubmitNeverPolls(s, store, body, id, h);
    assert ([e] + ticks)[0] == e && ([e] + ticks)[1..] == ticks;
    L.TicksAfterStopAreInert(s.(loading := false), ticks);
  }

  /**
   With the id in the submit reply, the page keeps that id, turns the
   spinner on and starts polling for it. A uuid is never empty, so the id
   is truthy.
   */
  lemma SubmitWithIdPolls(s: L.Page, store: Store, body: Value, id: string, h: L.HistoryFetch)
    requires !Truthy(s.requestId) && !s.polling
    requires |id| > 0
    requires R.SubmitTripWithId(store, body, id).Accepted?
    ensures var s' := L.Step(s, L.Submit(R.SubmitTripWithId(store, body, id).response, h));
      s'.polling && s'.loading && s'.requestId == Str(id) && s'.plan == s.plan
  {
  }

  /** While the row is pending a tick changes neither the page nor the store. */
  lemma PendingTickWaits(s: L.Page, store: Store, id: string, h: L.HistoryFetch)
    requires s.polling
    requires id in store && store[id].status == Pending
    ensures ServerTick(s, store, id, h) == (s, store)
  {
  }

  /**
   A done row whose plan the page recognises (status "done" or truthy
   `days`) is shown on the next tick: polling and spinner stop, the plan is
   the row's result, and the row is gone from the store.
   */
  lemma DonePlanDelivered(s: L.Page, store: Store, id: string, plan: Value, h: L.HistoryFetch)
    requires s.polling
    requires id in store && store[id].status == Done && store[id].result == Some(plan)
    requires !Nullish(plan) && L.IsDone(plan)
    ensures var (s', store') := ServerTick(s, store, id, h);
      && s'.plan == plan && !s'.polling && !s'.loading && s'.requestId == s.requestId
      && id !in store'
  {
  }

  /** The plan the worker writes when the model's reply is not JSON carries neither `status` nor `days`. */
  lemma ErrorPlanNotDone(details: string, rf: T.RouteFetch)
    ensures T.AttachRoute(T.ErrorPlan(details), rf).Ok?
    ensures !L.IsDone(T.AttachRoute(T.ErrorPlan(details), rf).value)
  {
  }

  /** The 404 body is not a finished plan either. */
  lemma NotFoundNotDone()
    ensures !Nullish(R.NotFoundBody) && !L.IsDone(R.NotFoundBody)
  {
  }

  /**
   Ticks against a store that has no row for the polled id leave the page
   as it is: every answer is the 404 body, which the page neither shows nor
   treats as a failure.
   */
  lemma {:induction false} PollsForeverWithoutRow(s: L.Page, store: Store, id: string, hs: seq<L.HistoryFetch>)
    requires s.polling
    requires id !in store
    ensures L.Run(s, TicksAgainst(store, id, hs)) == s
    decreases |hs|
  {
    if |hs| > 0 {
      NotFoundNotDone();
      assert TicksAgainst(store, id, hs)[1..] == TicksAgainst(store, id, hs[1..]);
      PollsForeverWithoutRow(s, store, id, hs[1..]);
    }
  }

  /** One tick per history outcome, each answered by `get_status` on the given store. */
  function TicksAgainst(store: Store, id: string, hs: seq<L.HistoryFetch>): (r: seq<L.Event>)
    ensures |r| == |hs|
    ensures forall i :: 0 <= i < |hs| ==> r[i] == L.Tick(Fetched(R.GetStatus(store, id).result), hs[i])
  {
    seq(|hs|, i requires 0 <= i < |hs| => L.Tick(Fetched(R.GetStatus(store, id).result), hs[i]))
  }

  /**
   An error plan is lost: the tick that reads it leaves the page polling
   as before while the row is deleted, and from then on every tick gets a
   404 and the spinner never stops.
   */
  lemma ErrorPlanLost(s: L.Page, store: Store, id: string, details: string, rf: T.RouteFetch,
                      h: L.HistoryFetch, hs: seq<L.HistoryFetch>)
    requires s.polling
    requires id in store && store[id].status == Done
    requires store[id].result == Some(T.AttachRoute(T.ErrorPlan(details), rf).value)
    ensures var (s', store') := ServerTick(s, store, id, h);
      && s' == s && id !in store'
      && L.Run(s', TicksAgainst(store', id, hs)) == s
  {
    ErrorPlanNotDone(details, rf);
    var (s', store') := ServerTick(s, store, id, h);
    PollsForeverWithoutRow(s', store', id, hs);
  }

  /**
   The job message `submit_trip` publishes is one the worker can process:
   unless the model call fails or answers with a JSON document that is not
   an object, the task completes and the new row becomes done, keeping its
   owner and request, with a result that carries a `google_route`.
   */
  lemma JobMessageProcessed(store: Store, body: Value, id: string, show: Value -> string,
                            llm: string -> T.LlmReply, directions: Value -> T.RouteFetch)
    requires R.SubmitTrip(store, body, id).Accepted?
    requires forall p :: !llm(p).LlmFailed? && (llm(p).Parsed? ==> llm(p).doc.Obj?)
    ensures var a := R.SubmitTrip(store, body, id);
      && T.PlanFor(a.message, show, llm, directions).Ok?
      && T.ProcessTask(a.store, a.message, show, llm, directions)
         == T.Completed(T.MarkDone(a.store, id, T.PlanFor(a.message, show, llm, directions).value))
    ensures var a := R.SubmitTrip(store, body, id);
      var done := T.ProcessTask(a.store, a.message, show, llm, directions).store;
      && done.Keys == a.store.Keys
      && done[id].status == Done && done[id].userId == R.Guest
      && done[id].payload == R.ParseTripRequest(body).value
      && done[id].result.Some? && "google_route" in done[id].result.value.props
  {
  }

  /**
   When the model answers every prompt with an object whose `days` is
   truthy, the worker completes the submitted job with a plan the page
   recognises as done, and reading that plan once empties the store again.
   */
  lemma WorkerWritesDonePlan(store: Store, body: Value, id: string,
                             show: Value -> string, llm: string -> T.LlmReply, directions: Value -> T.RouteFetch)
    requires R.SubmitTrip(store, body, id).Accepted?
    requires forall p :: llm(p).Parsed? && llm(p).doc.Obj? && Truthy(Prop(llm(p).doc, "days"))
    ensures var a := R.SubmitTrip(store, body, id);
      var plan := T.PlanFor(a.message, show, llm, directions);
      var worked := T.ProcessTask(a.store, a.message, show, llm, directions);
      && plan.Ok? && !Nullish(plan.value) && L.IsDone(plan.value)
      && worked.Completed? && id in worked.store
      && worked.store[id].status == Done && worked.store[id].result == Some(plan.value)
      && ClearResponse(worked.store, id) == store
  {
    var a := R.SubmitTrip(store, body, id);
    JobMessageProcessed(store, body, id, show, llm, directions);
    var plan := T.PlanFor(a.message, show, llm, directions).value;
    var m := a.message.props;
    var reply := llm(T.Prompt(T.PyStr(m["start_location"], show), T.PyStr(m["start_date"], show),
                              T.PyStr(m["end_date"], show), T.InterestsText(T.InterestsOf(m)).value));
    assert plan.props["days"] == reply.doc.props["days"];
    var worked := T.ProcessTask(a.store, a.message, show, llm, directions).store;
    InsertThenClear(store, id, R.Guest, R.ParseTripRequest(body).value);
    assert ClearResponse(worked, id) == ClearResponse(a.store, id);
  }

  /**
   With the id in the submit reply the whole round trip works, provided the
   model answers every prompt with an object whose `days` is truthy: submit,
   the worker's write, and the next tick show exactly the plan the worker
   wrote, stop polling and the spinner, and leave no row behind. An error
   plan is still lost, as `ErrorPlanLost` shows.
   */
  lemma RoundTripWithId(s: L.Page, store: Store, body: Value, id: string, h: L.HistoryFetch,
                        show: Value -> string, llm: string -> T.LlmReply, directions: Value -> T.RouteFetch)
    requires !Truthy(s.requestId) && !s.polling
    requires |id| > 0
    requires R.SubmitTripWithId(store, body, id).Accepted?
    requires forall p :: llm(p).Parsed? && llm(p).doc.Obj? && Truthy(Prop(llm(p).doc, "days"))
    ensures var a := R.SubmitTripWithId(store, body, id);
      var polling := L.Step(s, L.Submit(a.response, h));
      var worked := T.ProcessTask(a.store, a.message, show, llm, directions);
      && worked.Completed?
      && var (s', store') := ServerTick(polling, worked.store, id, h);
      && s'.plan == T.PlanFor(a.message, show, llm, directions).value
      && !s'.polling && !s'.loading
      && store' == store
  {
    var a := R.SubmitTripWithId(store, body, id);
    SubmitWithIdPolls(s, store, body, id, h);
    WorkerWritesDonePlan(store, body, id, show, llm, directions);
    var plan := T.PlanFor(a.message, show, llm, directions).value;
    var worked := T.ProcessTask(a.store, a.message, show, llm, directions).store;
    DonePlanDelivered(L.Step(s, L.Submit(a.response, h)), worked, id, plan, h);
  }
}

=== FILE: interests.dfy ===
/**
 The interest checkboxes of the search form: six fixed options, a selection
 kept as an ordered list, and the `handleToggle` each checkbox runs.
 */
module InterestPicker {
  import opened Seqs

  /** `INTEREST_OPTIONS`, in display order. */
  const Options: seq<string> := ["Nature", "Culture", "Food", "Adventure", "History", "Shopping"]

  /** The cap the form enforces: `selectedInterests.length === 6`. */
  const Cap: nat := 6

  predicate NoDuplicates(xs: seq<string>) {
    forall i, j :: 0 <= i < j < |xs| ==> xs[i] != xs[j]
  }

  /** `isDisabled`: the cap is reached and this option is not one of the chosen. */
  predicate IsDisabled(selected: seq<string>, option: string) {
    |selected| == Cap && option !in selected
  }

  /** `selectedInterests.filter(i => i !== option)`. */
  function Without(xs: seq<string>, x: string): (r: seq<string>)
    ensures IsFilterOf(r, xs, y => y != x)
    ensures forall y :: y in r <==> y in xs && y != x
    ensures |r| <= |xs|
    ensures x in xs ==> |r| < |xs|
    decreases |xs|
  {
    if |xs| == 0 then []
    else
      var rest := Without(xs[1..], x);
      WithoutStep(xs, x, rest);
      if xs[0] != x then [xs[0]] + rest else rest
  }

  lemma WithoutStep(xs: seq<string>, x: string, rest: seq<string>)
    requires |xs| > 0
    requires IsFilterOf(rest, xs[1..], y => y != x)
    requires forall y :: y in rest <==> y in xs[1..] && y != x
    ensures xs[0] != x ==> IsFilterOf([xs[0]] + rest, xs, y => y != x)
    ensures xs[0] == x ==> IsFilterOf(rest, xs, y => y != x)
  {
    assert xs == [xs[0]] + xs[1..];
    assert multiset(xs) == multiset{xs[0]} + multiset(xs[1..]);
    if xs[0] != x {
      assert ([xs[0]] + rest)[1..] == rest;
    } else if |rest| > 0 {
      assert IsSubsequence(rest, xs);
    }
  }

  /**
   `handleToggle` for one option: nothing while the option is disabled;
   otherwise a checked option is removed (every occurrence, the rest kept in
   order) and an unchecked one is appended.
   */
  function Toggle(selected: seq<string>, option: string): (r: seq<string>)
    ensures IsDisabled(selected, option) ==> r == selected
    ensures option in selected ==>
      option !in r && IsFilterOf(r, selected, y => y != option)
    ensures !IsDisabled(selected, option) && option !in selected ==>
      |r| == |selected| + 1 && r[..|selected|] == selected && r[|selected|] == option
  {
    if IsDisabled(selected, option) then selected
    else if option in selected then Without(selected, option)
    else selected + [option]
  }

  /** A selection without duplicates stays without duplicates. */
  lemma {:induction false} ToggleKeepsNoDuplicates(selected: seq<string>, option: string)
    requires NoDuplicates(selected)
    ensures NoDuplicates(Toggle(selected, option))
  {
    if option in selected && !IsDisabled(selected, option) {
      WithoutKeepsNoDuplicates(selected, option);
    }
  }

  lemma {:induction false} WithoutKeepsNoDuplicates(xs: seq<string>, x: string)
    requires NoDuplicates(xs)
    ensures NoDuplicates(Without(xs, x))
    decreases |xs|
  {
    if |xs| > 0 {
      WithoutKeepsNoDuplicates(xs[1..], x);
      assert NoDuplicates(xs[1..]) by {
        forall i, j | 0 <= i < j < |xs[1..]|
          ensures xs[1..][i] != xs[1..][j]
        {
          assert xs[1..][i] == xs[i + 1] && xs[1..][j] == xs[j + 1];
        }
      }
      assert xs[0] !in xs[1..];
    }
  }

  /** The selection never grows past six. */
  lemma ToggleKeepsCap(selected: seq<string>, option: string)
    requires |selected| <= Cap
    ensures |Toggle(selected, option)| <= Cap
  {
  }

  lemma {:induction false} WithoutAbsent(xs: seq<string>, x: string)
    requires x !in xs
    ensures Without(xs, x) == xs
    decreases |xs|
  {
    if |xs| > 0 {
      WithoutAbsent(xs[1..], x);
      assert xs == [xs[0]] + xs[1..];
    }
  }

  lemma {:induction false} WithoutAppend(xs: seq<string>, x: string)
    ensures Without(xs + [x], x) == Without(xs, x)
    decreases |xs|
  {
    if |xs| == 0 {
      assert [x][1..] == [];
    } else {
      assert (xs + [x])[1..] == xs[1..] + [x];
      WithoutAppend(xs[1..], x);
    }
  }

  /**
   Checking an option and then unchecking it gives back the selection. At
   the cap the option is disabled and both clicks do nothing.
   */
  lemma AddThenRemove(selected: seq<string>, option: string)
    requires option !in selected
    ensures Toggle(Toggle(selected, option), option) == selected
  {
    if !IsDisabled(selected, option) {
      var added := Toggle(selected, option);
      assert added == selected + [option];
      assert option in added;
      WithoutAppend(selected, option);
      WithoutAbsent(selected, option);
    }
  }

  /**
   Unchecking an option and checking it again keeps the same options but
   moves that one to the end of the list.
   */
  lemma RemoveThenAdd(selected: seq<string>, option: string)
    requires |selected| <= Cap
    requires option in selected
    ensures var r := Toggle(Toggle(selected, option), option);
      r == Without(selected, option) + [option] && (forall y :: y in r <==> y in selected)
  {
    var removed := Toggle(selected, option);
    assert option !in removed && |removed| < |selected|;
  }

  lemma {:induction false} DistinctCount(xs: seq<string>)
    requires NoDuplicates(xs)
    ensures |set x | x in xs| == |xs|
    decreases |xs|
  {
    if |xs| > 0 {
      var t := xs[1..];
      assert NoDuplicates(t) by {
        forall i, j | 0 <= i < j < |t|
          ensures t[i] != t[j]
        {
          assert t[i] == xs[i + 1] && t[j] == xs[j + 1];
        }
      }
      DistinctCount(t);
      assert xs[0] !in t;
      assert (set x | x in xs) == (set x | x in t) + {xs[0]};
    }
  }

  /**
   With only six options and no duplicates, a full selection already holds
   every option, so no option is ever disabled: the cap never takes effect.
   */
  lemma CapNeverDisables(selected: seq<string>, option: string)
    requires NoDuplicates(selected)
    requires forall x :: x in selected ==> x in Options
    requires option in Options
    ensures !IsDisabled(selected, option)
  {
    if |selected| == Cap {
      var chosen := set x | x in selected;
      var all := set x | x in Options;
      DistinctCount(selected);
      DistinctCount(Options);
      assert chosen <= all;
      assert |all - chosen| == |all| - |chosen| == 0;
      assert option in all;
    }
  }

  /** Toggling an offered option keeps the selection within the offered options. */
  lemma ToggleStaysInOptions(selected: seq<string>, option: string)
    requires forall x :: x in selected ==> x in Options
    requires option in Options
    ensures forall x :: x in Toggle(selected, option) ==> x in Options
  {
  }
}

=== FILE: js_value.dfy ===
/** Option, used wherever the source has "a value or nothing". */
module Optional {
  datatype Option<+T> = None | Some(value: T)
}

/**
 JSON documents as they reach the client page, the API server and the worker,
 together with the few JavaScript rules the page relies on: truthiness, loose
 `!= null`, `a || b`, plain and optional property access.

 Every payload in this system comes out of a JSON parser, so a value never
 holds `undefined` inside an array or object; `Undefined` only arises as the
 result of reading a property that is not there. Numbers carry no NaN, which JSON
 cannot express; a negative zero is identified with zero, a difference
 nothing in this system looks at.
 */
module JsValue {

  datatype Value =
    | Undefined
    | Null
    | Bool(b: bool)
    | Num(n: real)
    | Str(s: string)
    | Arr(elems: seq<Value>)
    | Obj(props: map<string, Value>)

  /** The result of evaluating an expression that may throw a TypeError. */
  datatype Eval<+T> = Ok(value: T) | Throws

  /** `v == null` in JavaScript's loose sense: null or undefined. */
  predicate Nullish(v: Value) {
    v.Undefined? || v.Null?
  }

  /** JavaScript truthiness. Arrays and objects are truthy even when empty. */
  predicate Truthy(v: Value) {
    match v
    case Undefined => false
    case Null => false
    case Bool(b) => b
    case Num(n) => n != 0.0
    case Str(s) => s != ""
    case Arr(_) => true
    case Obj(_) => true
  }

  /** `a || b`: the left operand when it is truthy, otherwise the right one. */
  function Or(a: Value, b: Value): (r: Value)
    ensures Truthy(a) ==> r == a
    ensures !Truthy(a) ==> r == b
    ensures Truthy(r) <==> Truthy(a) || Truthy(b)
  {
    if Truthy(a) then a else b
  }

  /**
   `v.key` on a value that is not null or undefined. Only objects carry the
   property names this system reads; on strings, numbers, booleans and arrays
   none of those names is defined, so the read gives undefined.
   */
  function Prop(v: Value, key: string): (r: Value)
    requires !Nullish(v)
    ensures v.Obj? && key in v.props ==> r == v.props[key]
    ensures !(v.Obj? && key in v.props) ==> r == Undefined
  {
    if v.Obj? && key in v.props then v.props[key] else Undefined
  }

  /** `v?.key`: undefined on null or undefined, otherwise the property. */
  function OptMember(v: Value, key: string): (r: Value)
    ensures Nullish(v) ==> r == Undefined
    ensures !Nullish(v) ==> r == Prop(v, key)
  {
    if Nullish(v) then Undefined else Prop(v, key)
  }

  /**
   `v?.[0]`: the first element of an array, the first character of a string,
   the property named "0" of an object, undefined otherwise.
   */
  function OptFirst(v: Value): (r: Value)
    ensures v.Arr? && |v.elems| > 0 ==> r == v.elems[0]
    ensures v.Arr? && |v.elems| == 0 ==> r == Undefined
    ensures v.Str? && |v.s| > 0 ==> r == Str([v.s[0]])
    ensures Nullish(v) ==> r == Undefined
  {
    match v
    case Arr(xs) => if |xs| > 0 then xs[0] else Undefined
    case Str(s) => if |s| > 0 then Str([s[0]]) else Undefined
    case Obj(m) => if "0" in m then m["0"] else Undefined
    case _ => Undefined
  }

  /** An object literal with exactly one property. */
  function Single(key: string, v: Value): (r: Value)
    ensures r.Obj? && r.props.Keys == {key} && r.props[key] == v
  {
    Obj(map[key := v])
  }

  /** The strings of an array whose elements are all strings. */
  function Strings(xs: seq<Value>): (r: seq<string>)
    requires forall i :: 0 <= i < |xs| ==> xs[i].Str?
    ensures |r| == |xs| && forall i :: 0 <= i < |xs| ==> xs[i] == Str(r[i])
  {
    seq(|xs|, i requires 0 <= i < |xs| => xs[i].s)
  }

  /** A JSON array of strings. */
  function StrArray(xs: seq<string>): (r: Value)
    ensures r.Arr? && |r.elems| == |xs| && forall i :: 0 <= i < |xs| ==> r.elems[i] == Str(xs[i])
  {
    Arr(seq(|xs|, i requires 0 <= i < |xs| => Str(xs[i])))
  }
}

=== FILE: lifecycle.dfy ===
/**
 The trip planner page's request lifecycle: the submit handler and the
 polling effect, as step functions over the part of the page state they
 touch. Every network reply is an input: the body the call resolved to, or
 the fact that it threw.
 */
module Lifecycle {
  import opened JsValue

  /**
   `requestId`, `plan`, `loading` and `history` are the page's state
   variables; `polling` says whether a status interval is registered for the
   current `requestId`.
   */
  datatype Page = Page(requestId: Value, plan: Value, loading: bool, polling: bool, history: Value)

  /** The state right after mount: `useState(null)`, `null`, `false`, `[]`. */
  const Initial: Page := Page(Null, Null, false, false, Arr([]))

  /** The outcome of `await getHistory(user.token)`: a reply body, or an exception. */
  datatype HistoryFetch = HistoryReply(data: Value) | HistoryFailed

  /** The outcome of `await getStatus(requestId)`. */
  datatype StatusFetch = StatusReply(res: Value) | StatusFailed

  /**
   `Object.is`, the comparison React uses for state updates and effect
   dependencies: equal primitives are the same; two arrays or objects decoded
   from separate replies never are.
   */
  predicate SameValue(a: Value, b: Value) {
    a == b && !a.Arr? && !a.Obj?
  }

  /** The invariant the two handlers keep: an interval only runs for a truthy id, with the spinner on. */
  predicate Inv(s: Page) {
    s.polling ==> Truthy(s.requestId) && s.loading
  }

  /**
   `setRequestId(id)` followed by React's effect handling: when the id
   changed, the previous interval is cleared, and a new one is started (with
   `setLoading(true)`) only if the new id is truthy.
   */
  function SetRequestId(s: Page, id: Value): (r: Page)
    ensures SameValue(id, s.requestId) ==> r == s
    ensures !SameValue(id, s.requestId) ==>
      r.requestId == id && r.plan == s.plan && r.history == s.history
    ensures !SameValue(id, s.requestId) ==> (r.polling <==> Truthy(id))
    ensures !SameValue(id, s.requestId) ==> r.loading == (s.loading || Truthy(id))
    ensures Inv(s) ==> Inv(r)
  {
    if SameValue(id, s.requestId) then s
    else
      var cleared := s.(requestId := id, polling := false);
      if Truthy(id) then cleared.(loading := true, polling := true) else cleared
  }

  /**
   The history refresh after a plan arrives: `historyData.history || []`.
   When the fetch throws, or its body is null so that `.history` throws, the
   state stays as it is (the poll's catch only repeats `clearInterval` and
   `setLoading(false)`, already done).
   */
  function RefreshHistory(s: Page, h: HistoryFetch): (r: Page)
    ensures r.requestId == s.requestId && r.plan == s.plan
    ensures r.loading == s.loading && r.polling == s.polling
    ensures h.HistoryReply? && !Nullish(h.data) ==>
      r.history == Or(Prop(h.data, "history"), Arr([])) && Truthy(r.history)
    ensures !(h.HistoryReply? && !Nullish(h.data)) ==> r.history == s.history
  {
    match h
    case HistoryReply(data) =>
      if Nullish(data) then s else s.(history := Or(Prop(data, "history"), Arr([])))
    case HistoryFailed => s
  }

  /** The poll's completion test `res.status === 'done' || res.days`, on a non-null reply. */
  predicate IsDone(res: Value)
    requires !Nullish(res)
  {
    Prop(res, "status") == Str("done") || Truthy(Prop(res, "days"))
  }

  /**
   One interval tick. Without a running interval nothing happens. A thrown
   fetch, or a null body (`res.status` throws inside the try), stops polling
   and the spinner. A completed reply stops polling, becomes the plan, stops
   the spinner and refreshes the history. Any other reply changes nothing.
   */
  function PollTick(s: Page, st: StatusFetch, h: HistoryFetch): (r: Page)
    ensures !s.polling ==> r == s
    ensures s.polling && (st.StatusFailed? || Nullish(st.res)) ==>
      r == s.(polling := false, loading := false)
    ensures s.polling && st.StatusReply? && !Nullish(st.res) && IsDone(st.res) ==>
      && r.plan == st.res && !r.loading && !r.polling && r.requestId == s.requestId
      && r == RefreshHistory(r.(history := s.history), h)
    ensures s.polling && st.StatusReply? && !Nullish(st.res) && !IsDone(st.res) ==> r == s
    ensures r.plan != s.plan ==> st.StatusReply? && !Nullish(st.res) && IsDone(st.res) && r.plan == st.res
    ensures Inv(s) ==> Inv(r)
  {
    if !s.polling then s
    else
      match st
      case StatusFailed => s.(polling := false, loading := false)
      case StatusReply(res) =>
        if Nullish(res) then s.(polling := false, loading := false)
        else if IsDone(res) then RefreshHistory(s.(polling := false, plan := res, loading := false), h)
        else s
  }

  /** `setLoading(true)`, done before the submit request is sent. */
  function BeginSubmit(s: Page): (r: Page)
    ensures r.loading && r.requestId == s.requestId && r.plan == s.plan
    ensures r.polling == s.polling && r.history == s.history
  {
    s.(loading := true)
  }

  /** `res.status === "done" && res.trip` */
  predicate IsImmediate(res: Value)
    requires !Nullish(res)
  {
    Prop(res, "status") == Str("done") && Truthy(Prop(res, "trip"))
  }

  /** `res.status === "submitted" && res.request_id` */
  predicate IsPending(res: Value)
    requires !Nullish(res)
  {
    Prop(res, "status") == Str("submitted") && Truthy(Prop(res, "request_id"))
  }

  /**
   The submit reply handler. A finished trip becomes the plan at once (and
   the history is refreshed); a pending one hands its id to the polling
   effect, leaving the spinner on; anything else just stops the spinner. A
   null body throws on `res.status` and, with no `.catch`, leaves the state
   as it was.
   */
  function SubmitReply(s: Page, res: Value, h: HistoryFetch): (r: Page)
    ensures Nullish(res) ==> r == s
    ensures !Nullish(res) && IsImmediate(res) ==>
      && r.plan == Prop(res, "trip") && !r.loading
      && r.requestId == s.requestId && r.polling == s.polling
      && r == RefreshHistory(r.(history := s.history), h)
    ensures !Nullish(res) && !IsImmediate(res) && IsPending(res) ==>
      r == SetRequestId(s, Prop(res, "request_id"))
    ensures !Nullish(res) && !IsImmediate(res) && !IsPending(res) ==>
      r == s.(loading := false)
  {
    if Nullish(res) then s
    else if IsImmediate(res) then RefreshHistory(s.(plan := Prop(res, "trip"), loading := false), h)
    else if IsPending(res) then SetRequestId(s, Prop(res, "request_id"))
    else s.(loading := false)
  }

  /**
   `handleSubmit`: spinner on, then the reply handler. With the spinner on
   first, a pending reply leaves it on and an unrecognised one turns it off,
   plan and id untouched.
   */
  function HandleSubmit(s: Page, res: Value, h: HistoryFetch): (r: Page)
    ensures !Nullish(res) && !IsImmediate(res) && IsPending(res) ==> r.loading
    ensures !Nullish(res) && !IsImmediate(res) && !IsPending(res) ==>
      !r.loading && r.plan == s.plan && r.requestId == s.requestId && r.polling == s.polling
    ensures Nullish(res) ==> r == s.(loading := true)
    ensures Inv(s) && !s.polling ==> Inv(r)
  {
    SubmitReply(BeginSubmit(s), res, h)
  }

  /** Something the user or the timer does to the page. */
  datatype Event =
    | Submit(res: Value, hist: HistoryFetch)
    | Tick(status: StatusFetch, hist: HistoryFetch)

  /**
   One event. The search form, and with it `handleSubmit`, is only on the
   page while `requestId` is falsy; a submit at any other time cannot happen.
   */
  function Step(s: Page, e: Event): (r: Page)
    ensures e.Submit? && Truthy(s.requestId) ==> r == s
    ensures Inv(s) ==> Inv(r)
  {
    match e
    case Submit(res, h) => if Truthy(s.requestId) then s else HandleSubmit(s, res, h)
    case Tick(st, h) => PollTick(s, st, h)
  }

  function Run(s: Page, es: seq<Event>): Page
    decreases |es|
  {
    if |es| == 0 then s else Run(Step(s, es[0]), es[1..])
  }

  /** Any run of submits and ticks keeps the invariant. */
  lemma {:induction false} RunKeepsInv(s: Page, es: seq<Event>)
    requires Inv(s)
    ensures Inv(Run(s, es))
    decreases |es|
  {
    if |es| > 0 {
      RunKeepsInv(Step(s, es[0]), es[1..]);
    }
  }

  /** The page right after mount keeps the invariant, and so does every page submits and ticks reach from it. */
  lemma InitialKeepsInv(es: seq<Event>)
    ensures Inv(Initial) && !Initial.polling
    ensures Inv(Run(Initial, es))
  {
    RunKeepsInv(Initial, es);
  }

  /** The outcome of `await findUserTrip(req, user.token)`: a reply body, or an exception. */
  datatype TripFetch = TripReply(data: Value) | TripFailed

  /**
   A click on a row of the "My Trips" table: the spinner goes on, the saved
   trip's `raw_plan` becomes the plan, and the spinner goes off whatever
   happened. A thrown fetch, or a null body whose `.raw_plan` throws, is
   caught and leaves the plan. The poll interval and the request id are not
   touched, and the table stays clickable while an interval runs.
   */
  function OpenTrip(s: Page, t: TripFetch): (r: Page)
    ensures !r.loading
    ensures r.requestId == s.requestId && r.polling == s.polling && r.history == s.history
    ensures t.TripReply? && !Nullish(t.data) ==> r.plan == Prop(t.data, "raw_plan")
    ensures !(t.TripReply? && !Nullish(t.data)) ==> r.plan == s.plan
  {
    var busy := s.(loading := true);
    match t
    case TripReply(data) =>
      if Nullish(data) then busy.(loading := false) else busy.(plan := Prop(data, "raw_plan"), loading := false)
    case TripFailed => busy.(loading := false)
  }

  /**
   The click is why the invariant is stated over submits and ticks only:
   opened while an interval runs, it leaves the interval running with the
   spinner off.
   */
  lemma OpenTripWhilePolling(s: Page, t: TripFetch)
    requires s.polling
    ensures !Inv(OpenTrip(s, t))
    ensures OpenTrip(s, t).polling && !OpenTrip(s, t).loading
  {
  }

  /**
   A trip opened while polling is shown only until the polled plan arrives:
   the next completed reply replaces it, and a reply that is not complete
   leaves the opened trip on screen.
   */
  lemma OpenTripThenTick(s: Page, t: TripFetch, st: StatusFetch, h: HistoryFetch)
    requires s.polling
    ensures st.StatusReply? && !Nullish(st.res) && IsDone(st.res) ==>
      PollTick(OpenTrip(s, t), st, h).plan == st.res
    ensures st.StatusReply? && !Nullish(st.res) && !IsDone(st.res) ==>
      PollTick(OpenTrip(s, t), st, h) == OpenTrip(s, t)
  {
  }

  /** A submit reply that would hand the polling effect a request id. */
  predicate StartsPolling(e: Event) {
    e.Submit? && !Nullish(e.res) && !IsImmediate(e.res) && IsPending(e.res)
  }

  /**
   Without a submit reply that carries a request id, no interval ever starts:
   the id stays what it was and every tick is a no-op.
   */
  lemma {:induction false} NoPollingWithoutRequestId(s: Page, es: seq<Event>)
    requires !s.polling
    requires forall i :: 0 <= i < |es| ==> !StartsPolling(es[i])
    ensures !Run(s, es).polling
    ensures Run(s, es).requestId == s.requestId
    decreases |es|
  {
    if |es| > 0 {
      var s' := Step(s, es[0]);
      assert !s'.polling && s'.requestId == s.requestId;
      NoPollingWithoutRequestId(s', es[1..]);
    }
  }

  /** After polling has stopped, no tick changes anything. */
  lemma {:induction false} TicksAfterStopAreInert(s: Page, es: seq<Event>)
    requires !s.polling
    requires forall i :: 0 <= i < |es| ==> es[i].Tick?
    ensures Run(s, es) == s
    decreases |es|
  {
    if |es| > 0 {
      TicksAfterStopAreInert(s, es[1..]);
    }
  }
}

=== FILE: plan_view.dfy ===
/**
 What the trip planner page derives from the plan payload it holds: the days
 it can place on the map, the map centre, the per-slot markers and the
 preview slot of each day card. The payload is whatever JSON the server
 returned, so every step follows JavaScript's own rules for missing fields
 and throws where the page would throw.
 */
module PlanView {
  import opened JsValue
  import opened Optional
  import opened Seqs
  import Decimal

  /** `plan?.days` */
  function Days(plan: Value): Value {
    OptMember(plan, "days")
  }

  // ---------------------------------------------------------------------
  // Valid days and the map centre

  /** `d.coords || d.coordinates`: the current field name wins when truthy. */
  function ChosenCoord(d: Value): Value
    requires !Nullish(d)
  {
    Or(Prop(d, "coords"), Prop(d, "coordinates"))
  }

  /**
   The `validDays` filter test on a day that is not null: the chosen record
   is truthy and its `lat` is not null or undefined. `lng` is not looked at.
   */
  predicate IsValidDay(d: Value) {
    && !Nullish(d)
    && Truthy(ChosenCoord(d))
    && !Nullish(Prop(ChosenCoord(d), "lat"))
  }

  /**
   `days.filter(...)` with the `validDays` callback. The callback reads
   `d.coords` first, so a null or undefined element throws.
   */
  function FilterValidDays(days: seq<Value>): (r: Eval<seq<Value>>)
    ensures r.Throws? <==> exists i :: 0 <= i < |days| && Nullish(days[i])
    ensures r.Ok? ==> IsFilterOf(r.value, days, IsValidDay)
    decreases |days|
  {
    if |days| == 0 then Ok([])
    else if Nullish(days[0]) then Throws
    else
      var rest := FilterValidDays(days[1..]);
      if rest.Throws? then
        var i :| 0 <= i < |days| - 1 && Nullish(days[1..][i]);
        assert Nullish(days[i + 1]);
        Throws
      else
        assert forall i :: 1 <= i < |days| ==> days[i] == days[1..][i - 1];
        FilterStep(days, rest.value);
        if IsValidDay(days[0]) then Ok([days[0]] + rest.value) else Ok(rest.value)
  }

  lemma FilterStep(days: seq<Value>, rest: seq<Value>)
    requires |days| > 0
    requires IsFilterOf(rest, days[1..], IsValidDay)
    ensures IsValidDay(days[0]) ==> IsFilterOf([days[0]] + rest, days, IsValidDay)
    ensures !IsValidDay(days[0]) ==> IsFilterOf(rest, days, IsValidDay)
  {
    assert days == [days[0]] + days[1..];
    assert multiset(days) == multiset{days[0]} + multiset(days[1..]);
    if IsValidDay(days[0]) {
      assert ([days[0]] + rest)[1..] == rest;
    } else {
      assert IsSubsequence(rest, days[1..]);
      if |rest| > 0 {
        assert IsSubsequence(rest, days);
      }
    }
  }

  /**
   Which record decides: a truthy `coords` is used even when its `lat` is
   null, so `coordinates` is then never consulted; only a falsy `coords`
   falls back to `coordinates`. In both cases only `lat` is tested.
   */
  lemma ValidDayCases(d: Value)
    requires !Nullish(d)
    ensures Truthy(Prop(d, "coords")) ==>
      (IsValidDay(d) <==> !Nullish(Prop(Prop(d, "coords"), "lat")))
    ensures !Truthy(Prop(d, "coords")) ==>
      (IsValidDay(d) <==> Truthy(Prop(d, "coordinates")) && !Nullish(Prop(Prop(d, "coordinates"), "lat")))
  {
  }

  /**
   A latitude of 0 passes: the test is `!= null`, not truthiness, so a day
   on the equator is placed and centres at latitude 0.
   */
  lemma ZeroLatIsValid(d: Value)
    requires !Nullish(d) && Truthy(ChosenCoord(d))
    requires Prop(ChosenCoord(d), "lat") == Num(0.0)
    ensures IsValidDay(d)
    ensures DayCoord(d).0 == Num(0.0)
  {
  }

  /**
   `lng` never matters to the test: giving any record of the day any other
   `lng`, or none, leaves the day exactly as valid as before.
   */
  lemma LngIgnored(d: Value, key: string, lng: Value)
    requires d.Obj? && key in d.props && d.props[key].Obj?
    ensures IsValidDay(Obj(d.props[key := Obj(d.props[key].props["lng" := lng])])) <==> IsValidDay(d)
  {
  }

  /**
   `plan?.days?.filter(...) || []`: empty when the plan or its days are
   missing, a TypeError when `days` is present but not an array (it has no
   `filter`) or holds a null day, and otherwise exactly the valid days in
   their original order.
   */
  function ValidDays(plan: Value): (r: Eval<seq<Value>>)
    ensures Nullish(Days(plan)) ==> r == Ok([])
    ensures !Nullish(Days(plan)) && !Days(plan).Arr? ==> r.Throws?
    ensures Days(plan).Arr? ==>
      (r.Throws? <==> exists i :: 0 <= i < |Days(plan).elems| && Nullish(Days(plan).elems[i]))
    ensures Days(plan).Arr? && r.Ok? ==> IsFilterOf(r.value, Days(plan).elems, IsValidDay)
  {
    var days := Days(plan);
    if Nullish(days) then Ok([])
    else if days.Arr? then FilterValidDays(days.elems)
    else Throws
  }

  /** The `[lat, lng]` pair the page reads off a valid day's chosen record. */
  function DayCoord(d: Value): (Value, Value)
    requires IsValidDay(d)
  {
    (Prop(ChosenCoord(d), "lat"), Prop(ChosenCoord(d), "lng"))
  }

  /** The fallback centre `[20, 0]`, a world view. */
  const WorldCenter: (Value, Value) := (Num(20.0), Num(0.0))

  /** `center`, computed from the `validDays` array. */
  function Center(valid: seq<Value>): (Value, Value)
    requires forall i :: 0 <= i < |valid| ==> IsValidDay(valid[i])
  {
    if |valid| > 0 then DayCoord(valid[0]) else WorldCenter
  }

  /** `i` is the first index of `days` holding a valid day. */
  predicate IsFirstValid(days: seq<Value>, i: int) {
    && 0 <= i < |days|
    && IsValidDay(days[i])
    && forall j :: 0 <= j < i ==> !IsValidDay(days[j])
  }

  /**
   The map centre of a plan: the chosen record's lat and lng of the first
   day in `days` that passes the filter, and exactly `[20, 0]` when none
   does. It throws exactly when `validDays` does.
   */
  function PlanCenter(plan: Value): (r: Eval<(Value, Value)>)
    ensures r.Ok? <==> ValidDays(plan).Ok?
    ensures r.Ok? && Days(plan).Arr? ==>
      forall i :: IsFirstValid(Days(plan).elems, i) ==> r.value == DayCoord(Days(plan).elems[i])
    ensures r.Ok? && Days(plan).Arr? && (forall i :: 0 <= i < |Days(plan).elems| ==> !IsValidDay(Days(plan).elems[i])) ==>
      r.value == WorldCenter
    ensures r.Ok? && !Days(plan).Arr? ==> r.value == WorldCenter
  {
    match ValidDays(plan)
    case Throws => Throws
    case Ok(valid) =>
      CenterLemma(plan, valid);
      Ok(Center(valid))
  }

  lemma CenterLemma(plan: Value, valid: seq<Value>)
    requires ValidDays(plan) == Ok(valid)
    ensures forall i :: 0 <= i < |valid| ==> IsValidDay(valid[i])
    ensures Days(plan).Arr? ==>
      forall i :: IsFirstValid(Days(plan).elems, i) ==> |valid| > 0 && valid[0] == Days(plan).elems[i]
    ensures Days(plan).Arr? && (forall i :: 0 <= i < |Days(plan).elems| ==> !IsValidDay(Days(plan).elems[i])) ==>
      valid == []
    ensures !Days(plan).Arr? ==> valid == []
  {
    if Days(plan).Arr? {
      var days := Days(plan).elems;
      assert IsFilterOf(valid, days, IsValidDay);
      forall i | 0 <= i < |valid|
        ensures IsValidDay(valid[i])
      {
        assert multiset(valid)[valid[i]] > 0;
      }
      forall i | IsFirstValid(days, i)
        ensures |valid| > 0 && valid[0] == days[i]
      {
        FilterHead(valid, days, IsValidDay, i);
      }
      if forall i :: 0 <= i < |days| ==> !IsValidDay(days[i]) {
        FilterNone(valid, days, IsValidDay);
      }
    }
  }

  // ---------------------------------------------------------------------
  // Markers

  /** The three time-of-day slots a day may carry, in the page's order. */
  datatype Slot = Morning | Noon | Evening

  function SlotName(s: Slot): string {
    match s
    case Morning => "morning"
    case Noon => "noon"
    case Evening => "evening"
  }

  /** Position of a slot in `['morning', 'noon', 'evening']`. */
  function Rank(s: Slot): nat {
    match s
    case Morning => 0
    case Noon => 1
    case Evening => 2
  }

  /** `day[slot]?.coords` is truthy: the slot gets a marker. */
  predicate IsPlaced(day: Value, s: Slot) {
    !Nullish(day) && Truthy(OptMember(Prop(day, SlotName(s)), "coords"))
  }

  /** One `<Marker>`: its key parts, position and popup text. */
  datatype Marker = Marker(day: nat, slot: Slot, lat: Value, lng: Value, placeName: Value, description: Value)

  /** The React key `day-${dayIdx}-${slot}`. */
  function Key(m: Marker): string {
    "day-" + Decimal.Show(m.day) + "-" + SlotName(m.slot)
  }

  /** The marker for slot `s` of day number `i`, read from `day[slot]`. */
  function SlotMarker(day: Value, i: nat, s: Slot): Marker
    requires IsPlaced(day, s)
  {
    var point := Prop(day, SlotName(s));
    var coords := Prop(point, "coords");
    Marker(i, s, Prop(coords, "lat"), Prop(coords, "lng"), Prop(point, "place_name"), Prop(point, "description"))
  }

  /** Markers come day by day, and within a day morning, noon, evening. */
  predicate Before(a: Marker, b: Marker) {
    a.day < b.day || (a.day == b.day && Rank(a.slot) < Rank(b.slot))
  }

  /** The marker of slot `s`, if that slot is placed. */
  function SlotPart(day: Value, i: nat, s: Slot): (ms: seq<Marker>)
    requires !Nullish(day)
    ensures |ms| <= 1
    ensures |ms| == 1 <==> IsPlaced(day, s)
    ensures |ms| == 1 ==> ms[0] == SlotMarker(day, i, s)
  {
    if IsPlaced(day, s) then [SlotMarker(day, i, s)] else []
  }

  /** The `forEach` over the three slots of one (non-null) day. */
  function DayMarkers(day: Value, i: nat): (ms: seq<Marker>)
    requires !Nullish(day)
    ensures |ms| <= 3
  {
    SlotPart(day, i, Morning) + SlotPart(day, i, Noon) + SlotPart(day, i, Evening)
  }

  /**
   One day's markers are exactly its placed slots, each once, in slot order,
   all carrying that day's number.
   */
  lemma DayMarkersFacts(day: Value, i: nat)
    requires !Nullish(day)
    ensures var ms := DayMarkers(day, i);
      && (forall k :: 0 <= k < |ms| ==>
            ms[k].day == i && IsPlaced(day, ms[k].slot) && ms[k] == SlotMarker(day, i, ms[k].slot))
      && (forall k, l :: 0 <= k < l < |ms| ==> Rank(ms[k].slot) < Rank(ms[l].slot))
      && (forall s :: IsPlaced(day, s) ==> exists k :: 0 <= k < |ms| && ms[k].slot == s)
  {
    var m, n, e := SlotPart(day, i, Morning), SlotPart(day, i, Noon), SlotPart(day, i, Evening);
    DaySound(day, i, m, n, e);
    DayOrdered(day, i, m, n, e);
    DayCovered(day, i, m, n, e);
  }

  lemma DaySound(day: Value, i: nat, m: seq<Marker>, n: seq<Marker>, e: seq<Marker>)
    requires !Nullish(day)
    requires m == SlotPart(day, i, Morning) && n == SlotPart(day, i, Noon) && e == SlotPart(day, i, Evening)
    ensures forall k :: 0 <= k < |m + n + e| ==>
      var mk := (m + n + e)[k];
      mk.day == i && IsPlaced(day, mk.slot) && mk == SlotMarker(day, i, mk.slot)
  {
    forall k | 0 <= k < |m + n + e|
      ensures var mk := (m + n + e)[k];
        mk.day == i && IsPlaced(day, mk.slot) && mk == SlotMarker(day, i, mk.slot)
    {
      if k < |m| {
        assert (m + n + e)[k] == m[0];
      } else if k < |m| + |n| {
        assert (m + n + e)[k] == n[0];
      } else {
        assert (m + n + e)[k] == e[0];
      }
    }
  }

  lemma DayOrdered(day: Value, i: nat, m: seq<Marker>, n: seq<Marker>, e: seq<Marker>)
    requires !Nullish(day)
    requires m == SlotPart(day, i, Morning) && n == SlotPart(day, i, Noon) && e == SlotPart(day, i, Evening)
    ensures forall k, l :: 0 <= k < l < |m + n + e| ==> Rank((m + n + e)[k].slot) < Rank((m + n + e)[l].slot)
  {
    var ms := m + n + e;
    forall k | 0 <= k < |ms|
      ensures Rank(ms[k].slot) == if k < |m| then 0 else if k < |m| + |n| then 1 else 2
    {
      if k < |m| {
        assert ms[k] == m[0];
      } else if k < |m| + |n| {
        assert ms[k] == n[0];
      } else {
        assert ms[k] == e[0];
      }
    }
  }

  lemma DayCovered(day: Value, i: nat, m: seq<Marker>, n: seq<Marker>, e: seq<Marker>)
    requires !Nullish(day)
    requires m == SlotPart(day, i, Morning) && n == SlotPart(day, i, Noon) && e == SlotPart(day, i, Evening)
    ensures forall s :: IsPlaced(day, s) ==> exists k :: 0 <= k < |m + n + e| && (m + n + e)[k].slot == s
  {
    var ms := m + n + e;
    forall s | IsPlaced(day, s)
      ensures exists k :: 0 <= k < |ms| && ms[k].slot == s
    {
      match s
      case Morning => assert ms[0] == m[0];
      case Noon => assert ms[|m|] == n[0];
      case Evening => assert ms[|m| + |n|] == e[0];
    }
  }

  /**
   Markers only look at the three slot records: the day's own `coords`,
   `coordinates` or any other non-slot field can be anything.
   */
  lemma DayFieldsIgnored(day: Value, i: nat, key: string, v: Value)
    requires day.Obj?
    requires key != "morning" && key != "noon" && key != "evening"
    ensures DayMarkers(Obj(day.props[key := v]), i) == DayMarkers(day, i)
  {
  }

  /** Soundness of a marker list for `days`: every marker comes from a placed slot. */
  predicate MarkersSound(days: seq<Value>, ms: seq<Marker>) {
    forall k :: 0 <= k < |ms| ==>
      && ms[k].day < |days|
      && IsPlaced(days[ms[k].day], ms[k].slot)
      && ms[k] == SlotMarker(days[ms[k].day], ms[k].day, ms[k].slot)
  }

  /** Every placed slot of every day has its marker. */
  predicate MarkersComplete(days: seq<Value>, ms: seq<Marker>) {
    forall i, s :: 0 <= i < |days| && IsPlaced(days[i], s) ==>
      exists k :: 0 <= k < |ms| && ms[k].day == i && ms[k].slot == s
  }

  predicate MarkersOrdered(ms: seq<Marker>) {
    forall k, l :: 0 <= k < l < |ms| ==> Before(ms[k], ms[l])
  }

  /**
   `days.reduce(...)` building the marker list from an empty array, left to
   right. A null or undefined day throws on `day[slot]`.
   */
  function MarkersOf(days: seq<Value>): (r: Eval<seq<Marker>>)
    ensures r.Throws? <==> exists i :: 0 <= i < |days| && Nullish(days[i])
    ensures r.Ok? ==> |r.value| <= 3 * |days|
    decreases |days|
  {
    if |days| == 0 then Ok([])
    else
      var n := |days| - 1;
      var pre := MarkersOf(days[..n]);
      if pre.Throws? then
        assert exists i :: 0 <= i < n && Nullish(days[..n][i]);
        Throws
      else if Nullish(days[n]) then Throws
      else Ok(pre.value + DayMarkers(days[n], n))
  }

  /**
   A marker list that renders holds one marker per placed (day, slot) pair,
   read from that slot, and nothing else, ordered day-major and then
   morning, noon, evening.
   */
  lemma {:induction false} MarkersOfCorrect(days: seq<Value>)
    requires MarkersOf(days).Ok?
    ensures MarkersSound(days, MarkersOf(days).value)
    ensures MarkersOrdered(MarkersOf(days).value)
    ensures MarkersComplete(days, MarkersOf(days).value)
    decreases |days|
  {
    if |days| > 0 {
      var n := |days| - 1;
      MarkersOfCorrect(days[..n]);
      MarkersStep(days, MarkersOf(days[..n]).value, MarkersOf(days).value);
    }
  }

  /** Appending the last day's markers to a sound, ordered, complete list for the earlier days. */
  lemma MarkersStep(days: seq<Value>, pre: seq<Marker>, ms: seq<Marker>)
    requires |days| > 0 && !Nullish(days[|days| - 1])
    requires MarkersSound(days[..|days| - 1], pre)
    requires MarkersOrdered(pre)
    requires MarkersComplete(days[..|days| - 1], pre)
    requires ms == pre + DayMarkers(days[|days| - 1], |days| - 1)
    ensures MarkersSound(days, ms) && MarkersOrdered(ms) && MarkersComplete(days, ms)
  {
    DayMarkersFacts(days[|days| - 1], |days| - 1);
    var dm := DayMarkers(days[|days| - 1], |days| - 1);
    StepSound(days, pre, dm, ms);
    StepOrdered(days, pre, dm, ms);
    StepComplete(days, days[|days| - 1], pre, dm, ms);
  }

  lemma StepSound(days: seq<Value>, pre: seq<Marker>, dm: seq<Marker>, ms: seq<Marker>)
    requires |days| > 0 && !Nullish(days[|days| - 1])
    requires MarkersSound(days[..|days| - 1], pre)
    requires ms == pre + dm
    requires
      forall k :: 0 <= k < |dm| ==>
        dm[k].day == |days| - 1 && IsPlaced(days[|days| - 1], dm[k].slot)
        && dm[k] == SlotMarker(days[|days| - 1], |days| - 1, dm[k].slot)
    ensures MarkersSound(days, ms)
  {
    var n := |days| - 1;
    forall k | 0 <= k < |ms|
      ensures ms[k].day < |days| && IsPlaced(days[ms[k].day], ms[k].slot)
      ensures ms[k] == SlotMarker(days[ms[k].day], ms[k].day, ms[k].slot)
    {
      if k < |pre| {
        assert ms[k] == pre[k];
        assert days[..n][pre[k].day] == days[pre[k].day];
      } else {
        assert ms[k] == dm[k - |pre|];
      }
    }
  }

  lemma StepOrdered(days: seq<Value>, pre: seq<Marker>, dm: seq<Marker>, ms: seq<Marker>)
    requires |days| > 0 && !Nullish(days[|days| - 1])
    requires MarkersSound(days[..|days| - 1], pre)
    requires MarkersOrdered(pre)
    requires ms == pre + dm
    requires
      && (forall k :: 0 <= k < |dm| ==> dm[k].day == |days| - 1)
      && (forall k, l :: 0 <= k < l < |dm| ==> Rank(dm[k].slot) < Rank(dm[l].slot))
    ensures MarkersOrdered(ms)
  {
    var n := |days| - 1;
    forall k, l | 0 <= k < l < |ms|
      ensures Before(ms[k], ms[l])
    {
      if l < |pre| {
        assert ms[k] == pre[k] && ms[l] == pre[l];
      } else if k < |pre| {
        assert ms[k] == pre[k] && ms[l] == dm[l - |pre|];
      } else {
        assert ms[k] == dm[k - |pre|] && ms[l] == dm[l - |pre|];
      }
    }
  }

  lemma StepComplete(days: seq<Value>, last: Value, pre: seq<Marker>, dm: seq<Marker>, ms: seq<Marker>)
    requires |days| > 0 && last == days[|days| - 1] && !Nullish(last)
    requires MarkersComplete(days[..|days| - 1], pre)
    requires ms == pre + dm
    requires
      && (forall k :: 0 <= k < |dm| ==> dm[k].day == |days| - 1)
      && (forall s :: IsPlaced(last, s) ==> exists k :: 0 <= k < |dm| && dm[k].slot == s)
    ensures MarkersComplete(days, ms)
  {
    var n := |days| - 1;
    forall i, s | 0 <= i < |days| && IsPlaced(days[i], s)
      ensures exists k :: 0 <= k < |ms| && ms[k].day == i && ms[k].slot == s
    {
      if i < n {
        assert IsPlaced(days[..n][i], s);
        var k :| 0 <= k < |pre| && pre[k].day == i && pre[k].slot == s;
        assert ms[k] == pre[k];
      } else {
        var k :| 0 <= k < |dm| && dm[k].slot == s;
        assert ms[|pre| + k] == dm[k];
      }
    }
  }

  /**
   The markers of a plan: none when the plan or its days are missing, a
   TypeError when `days` is not an array or holds a null day.
   */
  function Markers(plan: Value): (r: Eval<seq<Marker>>)
    ensures Nullish(Days(plan)) ==> r == Ok([])
    ensures !Nullish(Days(plan)) && !Days(plan).Arr? ==> r.Throws?
    ensures Days(plan).Arr? ==> r == MarkersOf(Days(plan).elems)
  {
    var days := Days(plan);
    if Nullish(days) then Ok([])
    else if days.Arr? then MarkersOf(days.elems)
    else Throws
  }

  lemma SlotNamesDistinct(s: Slot, t: Slot)
    requires SlotName(s) == SlotName(t)
    ensures s == t
  {
  }

  /** In a key, the numeral's characters are digits and a '-' follows it. */
  lemma NumeralEnd(d: string, name: string)
    requires forall i :: 0 <= i < |d| ==> Decimal.IsDigit(d[i])
    ensures var k := "day-" + d + "-" + name;
      && k[4 + |d|] == '-'
      && forall j :: 4 <= j < 4 + |d| ==> Decimal.IsDigit(k[j])
  {
  }

  /**
   Two markers with the same key string are for the same day and slot: the
   decimal day number is all digits, so the `-` after it marks where it ends.
   */
  lemma {:induction false} KeyInjective(a: Marker, b: Marker)
    requires Key(a) == Key(b)
    ensures a.day == b.day && a.slot == b.slot
  {
    var da, db := Decimal.Show(a.day), Decimal.Show(b.day);
    var ka, kb := Key(a), Key(b);
    NumeralEnd(da, SlotName(a.slot));
    NumeralEnd(db, SlotName(b.slot));
    // the shorter numeral would be followed by '-' where the longer one has a digit
    assert |da| == |db|;
    assert ka == "day-" + da + "-" + SlotName(a.slot);
    assert kb == "day-" + db + "-" + SlotName(b.slot);
    assert da == ka[4..4 + |da|] == kb[4..4 + |db|] == db;
    Decimal.ShowInjective(a.day, b.day);
    assert SlotName(a.slot) == ka[5 + |da|..] == kb[5 + |db|..] == SlotName(b.slot);
    SlotNamesDistinct(a.slot, b.slot);
  }

  /**
   The marker list of a plan that renders is exactly one marker per placed
   (day, slot) pair of its days, read from that slot, day-major and then
   morning, noon, evening; a plan without days has no markers.
   */
  lemma PlanMarkers(plan: Value)
    requires Markers(plan).Ok?
    ensures !Days(plan).Arr? ==> Markers(plan).value == []
    ensures Days(plan).Arr? ==>
      var days := Days(plan).elems;
      var ms := Markers(plan).value;
      MarkersSound(days, ms) && MarkersOrdered(ms) && MarkersComplete(days, ms)
  {
    if Days(plan).Arr? {
      MarkersOfCorrect(Days(plan).elems);
    }
  }

  /**
   The React keys of a plan's markers are pairwise distinct: the markers are
   strictly ordered by (day, slot), and equal keys mean equal day and slot.
   */
  lemma MarkerKeysUnique(plan: Value)
    requires Markers(plan).Ok?
    ensures var ms := Markers(plan).value;
      forall k, l :: 0 <= k < l < |ms| ==> Key(ms[k]) != Key(ms[l])
  {
    var ms := Markers(plan).value;
    if Days(plan).Arr? {
      MarkersOfCorrect(Days(plan).elems);
    }
    forall k, l | 0 <= k < l < |ms|
      ensures Key(ms[k]) != Key(ms[l])
    {
      assert Before(ms[k], ms[l]);
      if Key(ms[k]) == Key(ms[l]) {
        KeyInjective(ms[k], ms[l]);
      }
    }
  }

  // ---------------------------------------------------------------------
  // Day-card preview

  /** `day[slot]?.image_url` is truthy. */
  predicate HasImage(day: Value, s: Slot) {
    !Nullish(day) && Truthy(OptMember(Prop(day, SlotName(s)), "image_url"))
  }

  /**
   `["morning", "noon", "evening"].find(slot => day[slot]?.image_url)`:
   the earliest slot with a truthy image, none when no slot has one, and a
   TypeError when the day itself is null or undefined.
   */
  function PreviewSlot(day: Value): (r: Eval<Option<Slot>>)
    ensures r.Throws? <==> Nullish(day)
    ensures r.Ok? && r.value.Some? ==>
      HasImage(day, r.value.value) && forall t :: Rank(t) < Rank(r.value.value) ==> !HasImage(day, t)
    ensures r == Ok(None) ==> forall t :: !HasImage(day, t)
  {
    if Nullish(day) then Throws
    else if HasImage(day, Morning) then Ok(Some(Morning))
    else if HasImage(day, Noon) then Ok(Some(Noon))
    else if HasImage(day, Evening) then Ok(Some(Evening))
    else Ok(None)
  }

  /**
   `previewSlotName && day[previewSlotName]`: the point shown on a closed day
   card. It is truthy, with a truthy `image_url`, exactly when some slot has
   an image, and it is then the record of the earliest such slot.
   */
  function Preview(day: Value): (r: Eval<Value>)
    ensures r.Throws? <==> Nullish(day)
    ensures r.Ok? ==> (Truthy(r.value) <==> exists s :: HasImage(day, s))
    ensures r.Ok? && Truthy(r.value) ==> Truthy(OptMember(r.value, "image_url"))
    ensures r.Ok? && Truthy(r.value) ==>
      exists s :: HasImage(day, s) && r.value == Prop(day, SlotName(s)) && forall t :: Rank(t) < Rank(s) ==> !HasImage(day, t)
  {
    match PreviewSlot(day)
    case Throws => Throws
    case Ok(None) => Ok(Undefined)
    case Ok(Some(s)) => Ok(Prop(day, SlotName(s)))
  }
}

=== FILE: request_store.dfy ===
/**
 The `requests` table of the state database as a map from request id to
 row, and the three queries the API server runs on it. `request_id` is
 taken to be the table's key: no two rows share one, and inserting an id
 that is already there fails.
 */
module RequestStore {
  import opened Optional
  import opened JsValue

  /** The validated body of a trip request, as the API server receives it. */
  datatype TripRequest = TripRequest(startLocation: string, startDate: string, endDate: string, interests: seq<string>)

  /**
   One row. `payload` is the request as submitted; `result` is the plan
   document the worker wrote (NULL until then). JSON text in the database is
   represented by the document it encodes.
   */
  datatype Row = Row(userId: string, status: string, payload: TripRequest, result: Option<Value>)

  type Store = map<string, Row>

  /** The two columns `get_request_by_id` selects. */
  datatype StatusRow = StatusRow(status: string, result: Option<Value>)

  const Pending := "pending"
  const Done := "done"

  /**
   `insert_request`: a new pending row with the given user and payload and
   no result. An id already in the table violates its key and nothing is
   written.
   */
  function InsertRequest(store: Store, id: string, userId: string, payload: TripRequest): (r: Option<Store>)
    ensures id in store <==> r.None?
    ensures r.Some? ==> r.value.Keys == store.Keys + {id}
    ensures r.Some? ==> r.value[id] == Row(userId, Pending, payload, None)
    ensures r.Some? ==> forall k :: k in store ==> r.value[k] == store[k]
  {
    if id in store then None else Some(store[id := Row(userId, Pending, payload, None)])
  }

  /** `get_request_by_id`: the row's status and result, or None when no row has that id. */
  function GetRequestById(store: Store, id: string): (r: Option<StatusRow>)
    ensures id !in store <==> r.None?
    ensures id in store ==> r == Some(StatusRow(store[id].status, store[id].result))
  {
    if id in store then Some(StatusRow(store[id].status, store[id].result)) else None
  }

  /** `clear_response`: deletes the row with that id, if any, and nothing else. */
  function ClearResponse(store: Store, id: string): (r: Store)
    ensures r.Keys == store.Keys - {id}
    ensures forall k :: k in r ==> r[k] == store[k]
  {
    map k | k in store && k != id :: store[k]
  }

  /** After `clear_response(id)`, looking the id up finds nothing, and other ids are unaffected. */
  lemma ClearThenGet(store: Store, id: string, other: string)
    requires other != id
    ensures GetRequestById(ClearResponse(store, id), id) == None
    ensures GetRequestById(ClearResponse(store, id), other) == GetRequestById(store, other)
  {
  }

  /** A freshly inserted row reads back as pending with no result. */
  lemma InsertThenGet(store: Store, id: string, userId: string, payload: TripRequest)
    requires id !in store
    ensures var s := InsertRequest(store, id, userId, payload).value;
      GetRequestById(s, id) == Some(StatusRow(Pending, None))
  {
  }

  /** Removing a row just inserted gives back the table. */
  lemma InsertThenClear(store: Store, id: string, userId: string, payload: TripRequest)
    requires id !in store
    ensures ClearResponse(InsertRequest(store, id, userId, payload).value, id) == store
  {
  }
}

=== FILE: route_view.dfy ===
/**
 The red trip route on the page's map: every step polyline of every leg of
 the plan's first Google route, decoded and laid end to end, drawn (and the
 map fitted to it) only when it has more than one point.

 The polyline decoder is a library the page calls; here it is the parameter
 `decode`, about which nothing is assumed: it may return any point list or
 throw.
 */
module RouteView {
  import opened JsValue
  import opened Optional
  import opened Seqs

  /** One vertex `[lat, lng]` of a decoded polyline. Coordinates are only carried. */
  datatype LatLng = LatLng(lat: real, lng: real)

  /** `plan?.google_route?.routes?.[0]`: the only route the page looks at. */
  function FirstRoute(plan: Value): Value {
    OptFirst(OptMember(OptMember(plan, "google_route"), "routes"))
  }

  /**
   What `flatMap` makes of `leg.steps || []` for one leg: the elements of an
   array, nothing for a missing or falsy `steps`, and any other truthy value
   as a single element.
   */
  function LegSteps(leg: Value): (r: seq<Value>)
    requires !Nullish(leg)
    ensures !Truthy(Prop(leg, "steps")) ==> r == []
    ensures Prop(leg, "steps").Arr? ==> r == Prop(leg, "steps").elems
    ensures Truthy(Prop(leg, "steps")) && !Prop(leg, "steps").Arr? ==> r == [Prop(leg, "steps")]
  {
    var steps := Or(Prop(leg, "steps"), Arr([]));
    if steps.Arr? then steps.elems else [steps]
  }

  /** `legs.flatMap(leg => leg.steps || [])`; a null leg throws on `leg.steps`. */
  function FlatSteps(legs: seq<Value>): (r: Eval<seq<Value>>)
    ensures r.Ok? <==> forall i :: 0 <= i < |legs| ==> !Nullish(legs[i])
    decreases |legs|
  {
    if |legs| == 0 then Ok([])
    else if Nullish(legs[0]) then Throws
    else
      var rest := FlatSteps(legs[1..]);
      if rest.Throws? then Throws else Ok(LegSteps(legs[0]) + rest.value)
  }

  /** The steps of two runs of legs are those of the first run followed by those of the second. */
  lemma {:induction false} FlatStepsAppend(a: seq<Value>, b: seq<Value>)
    requires FlatSteps(a).Ok? && FlatSteps(b).Ok?
    ensures FlatSteps(a + b) == Ok(FlatSteps(a).value + FlatSteps(b).value)
    decreases |a|
  {
    if |a| == 0 {
      assert a + b == b;
      assert FlatSteps(a).value == [];
      assert [] + FlatSteps(b).value == FlatSteps(b).value;
    } else {
      var ab := a + b;
      assert ab[0] == a[0] && ab[1..] == a[1..] + b;
      assert !Nullish(a[0]);
      var restA := FlatSteps(a[1..]);
      assert restA.Ok?;
      FlatStepsAppend(a[1..], b);
      var restAB := FlatSteps(ab[1..]);
      assert restAB == Ok(restA.value + FlatSteps(b).value);
      assert FlatSteps(ab) == Ok(LegSteps(a[0]) + restAB.value);
      assert FlatSteps(a) == Ok(LegSteps(a[0]) + restA.value);
      assert LegSteps(a[0]) + (restA.value + FlatSteps(b).value) == (LegSteps(a[0]) + restA.value) + FlatSteps(b).value;
    }
  }

  /** One leg contributes exactly its own steps; with `FlatStepsAppend` this fixes the steps of any legs. */
  lemma FlatStepsSingle(leg: Value)
    requires !Nullish(leg)
    ensures FlatSteps([leg]) == Ok(LegSteps(leg))
  {
    assert [leg][1..] == [];
    assert LegSteps(leg) + [] == LegSteps(leg);
  }

  /** `polyline.decode(step.polyline.points)`; a null step or polyline throws. */
  function StepPoints(step: Value, decode: Value -> Eval<seq<LatLng>>): (r: Eval<seq<LatLng>>)
    ensures Nullish(step) ==> r.Throws?
    ensures !Nullish(step) && Nullish(Prop(step, "polyline")) ==> r.Throws?
    ensures !Nullish(step) && !Nullish(Prop(step, "polyline")) ==>
      r == decode(Prop(Prop(step, "polyline"), "points"))
  {
    if Nullish(step) then Throws
    else
      var line := Prop(step, "polyline");
      if Nullish(line) then Throws else decode(Prop(line, "points"))
  }

  /** The number of points the steps decode to, counted one step at a time. */
  function DecodedCount(steps: seq<Value>, decode: Value -> Eval<seq<LatLng>>): nat
    requires forall i :: 0 <= i < |steps| ==> StepPoints(steps[i], decode).Ok?
  {
    if |steps| == 0 then 0
    else |StepPoints(steps[0], decode).value| + DecodedCount(steps[1..], decode)
  }

  /**
   `allSteps.flatMap(step => polyline.decode(...))`: the decoded points of
   every step, in step order, with nothing dropped or merged. It throws
   exactly when some step does.
   */
  function DecodeAll(steps: seq<Value>, decode: Value -> Eval<seq<LatLng>>): (r: Eval<seq<LatLng>>)
    ensures r.Ok? <==> forall i :: 0 <= i < |steps| ==> StepPoints(steps[i], decode).Ok?
    decreases |steps|
  {
    if |steps| == 0 then Ok([])
    else
      var head := StepPoints(steps[0], decode);
      var rest := DecodeAll(steps[1..], decode);
      if head.Throws? then Throws
      else if rest.Throws? then
        assert exists i :: 0 <= i < |steps| - 1 && StepPoints(steps[1..][i], decode).Throws?;
        Throws
      else
        assert forall i :: 1 <= i < |steps| ==> steps[i] == steps[1..][i - 1];
        Ok(head.value + rest.value)
  }

  /**
   Decoding two runs of steps one after the other gives the first run's
   points followed by the second's: step order is kept across legs.
   */
  lemma {:induction false} DecodeAllAppend(a: seq<Value>, b: seq<Value>, decode: Value -> Eval<seq<LatLng>>)
    requires DecodeAll(a, decode).Ok? && DecodeAll(b, decode).Ok?
    ensures DecodeAll(a + b, decode) == Ok(DecodeAll(a, decode).value + DecodeAll(b, decode).value)
    decreases |a|
  {
    if |a| == 0 {
      assert a + b == b;
      assert DecodeAll(a, decode).value == [];
      assert [] + DecodeAll(b, decode).value == DecodeAll(b, decode).value;
    } else {
      DecodeAllTail(a, decode);
      DecodeAllAppend(a[1..], b, decode);
      DecodeAllAppendStep(a, b, decode);
    }
  }

  /** A run that decodes has a first step and a rest that decode, and is their concatenation. */
  lemma DecodeAllTail(steps: seq<Value>, decode: Value -> Eval<seq<LatLng>>)
    requires |steps| > 0 && DecodeAll(steps, decode).Ok?
    ensures StepPoints(steps[0], decode).Ok? && DecodeAll(steps[1..], decode).Ok?
    ensures DecodeAll(steps, decode).value == StepPoints(steps[0], decode).value + DecodeAll(steps[1..], decode).value
  {
  }

  /** The step of `DecodeAllAppend`: from the rest of `a` followed by `b` to all of `a` followed by `b`. */
  lemma DecodeAllAppendStep(a: seq<Value>, b: seq<Value>, decode: Value -> Eval<seq<LatLng>>)
    requires |a| > 0 && StepPoints(a[0], decode).Ok? && DecodeAll(a[1..], decode).Ok? && DecodeAll(b, decode).Ok?
    requires DecodeAll(a, decode).value == StepPoints(a[0], decode).value + DecodeAll(a[1..], decode).value
    requires DecodeAll(a[1..] + b, decode) == Ok(DecodeAll(a[1..], decode).value + DecodeAll(b, decode).value)
    ensures DecodeAll(a + b, decode) == Ok(DecodeAll(a, decode).value + DecodeAll(b, decode).value)
  {
    var head := StepPoints(a[0], decode).value;
    var restA := DecodeAll(a[1..], decode).value;
    var all := DecodeAll(b, decode).value;
    assert DecodeAll(a + b, decode) == Ok(head + (restA + all)) by {
      var ab := a + b;
      assert ab[0] == a[0] && ab[1..] == a[1..] + b;
      DecodeAllCons(ab, decode);
    }
    AppendAssoc(head, restA, all);
  }

  /** A run whose first step and rest decode decodes to the two one after the other. */
  lemma DecodeAllCons(steps: seq<Value>, decode: Value -> Eval<seq<LatLng>>)
    requires |steps| > 0 && StepPoints(steps[0], decode).Ok? && DecodeAll(steps[1..], decode).Ok?
    ensures DecodeAll(steps, decode) == Ok(StepPoints(steps[0], decode).value + DecodeAll(steps[1..], decode).value)
  {
  }

  /**
   The merged list has exactly as many points as the steps decode to one by
   one: no point is dropped, invented or de-duplicated.
   */
  lemma {:induction false} DecodeAllCount(steps: seq<Value>, decode: Value -> Eval<seq<LatLng>>)
    requires DecodeAll(steps, decode).Ok?
    ensures |DecodeAll(steps, decode).value| == DecodedCount(steps, decode)
    decreases |steps|
  {
    if |steps| > 0 {
      DecodeAllCount(steps[1..], decode);
    }
  }

  /** A single step contributes exactly its own decoding. */
  lemma DecodeAllSingle(step: Value, decode: Value -> Eval<seq<LatLng>>)
    ensures DecodeAll([step], decode) == StepPoints(step, decode)
  {
    assert [step][1..] == [];
    assert DecodeAll([], decode) == Ok([]);
    if StepPoints(step, decode).Ok? {
      assert StepPoints(step, decode).value + [] == StepPoints(step, decode).value;
    }
  }

  /**
   The merged point list of one route record (`routes[0]`): nothing when the
   record is falsy, otherwise the decoded points of all its steps. `legs`
   defaults to `[]`; a truthy non-array `legs` throws, having no `flatMap`.
   */
  function RoutePointsOf(route: Value, decode: Value -> Eval<seq<LatLng>>): (r: Eval<Option<seq<LatLng>>>)
    ensures !Truthy(route) ==> r == Ok(None)
    ensures Truthy(route) && !Truthy(Prop(route, "legs")) ==> r == Ok(Some([]))
    ensures Truthy(route) && Truthy(Prop(route, "legs")) && !Prop(route, "legs").Arr? ==> r.Throws?
    ensures Truthy(route) && Prop(route, "legs").Arr? ==>
      match FlatSteps(Prop(route, "legs").elems)
      case Throws => r.Throws?
      case Ok(steps) => (r.Ok? <==> DecodeAll(steps, decode).Ok?) &&
                        (r.Ok? ==> r.value == Some(DecodeAll(steps, decode).value))
  {
    if !Truthy(route) then Ok(None)
    else
      var legs := Or(Prop(route, "legs"), Arr([]));
      if !legs.Arr? then Throws
      else
        match FlatSteps(legs.elems)
        case Throws => Throws
        case Ok(steps) =>
          match DecodeAll(steps, decode)
          case Throws => Throws
          case Ok(points) => Ok(Some(points))
  }

  /** The page's `decoded` array for a plan, computed from its first route only. */
  function RoutePoints(plan: Value, decode: Value -> Eval<seq<LatLng>>): Eval<Option<seq<LatLng>>> {
    RoutePointsOf(FirstRoute(plan), decode)
  }

  /** Routes after the first one make no difference to the points, whatever else the plan holds. */
  lemma LaterRoutesIgnored(plan: map<string, Value>, gr: map<string, Value>, first: Value,
                           rest: seq<Value>, rest': seq<Value>, decode: Value -> Eval<seq<LatLng>>)
    ensures RoutePoints(Obj(plan["google_route" := Obj(gr["routes" := Arr([first] + rest)])]), decode)
         == RoutePoints(Obj(plan["google_route" := Obj(gr["routes" := Arr([first] + rest')])]), decode)
  {
  }

  /**
   The `<Polyline>` and `<FitBoundsToPolyline>` pair: rendered, with the
   merged points, exactly when the merged list has more than one point.
   */
  function RouteLayer(plan: Value, decode: Value -> Eval<seq<LatLng>>): (r: Eval<Option<seq<LatLng>>>)
    ensures r.Throws? <==> RoutePoints(plan, decode).Throws?
    ensures r.Ok? && r.value.Some? ==>
      |r.value.value| > 1 && RoutePoints(plan, decode) == Ok(Some(r.value.value))
    ensures r == Ok(None) ==>
      RoutePoints(plan, decode) == Ok(None) ||
      (RoutePoints(plan, decode).Ok? && |RoutePoints(plan, decode).value.value| <= 1)
  {
    match RoutePoints(plan, decode)
    case Throws => Throws
    case Ok(None) => Ok(None)
    case Ok(Some(points)) => if |points| > 1 then Ok(Some(points)) else Ok(None)
  }

  /**
   `FitBoundsToPolyline`'s effect: the points handed to `L.latLngBounds`, or
   nothing at all for an empty list.
   */
  function FitBounds(points: seq<LatLng>): (r: Option<seq<LatLng>>)
    ensures r.Some? <==> |points| > 0
    ensures r.Some? ==> r.value == points
  {
    if |points| > 0 then Some(points) else None
  }

  /** Whenever the route line is drawn, the map is fitted to exactly its points. */
  lemma DrawnRouteIsFitted(plan: Value, decode: Value -> Eval<seq<LatLng>>)
    requires RouteLayer(plan, decode).Ok? && RouteLayer(plan, decode).value.Some?
    ensures FitBounds(RouteLayer(plan, decode).value.value) == Some(RouteLayer(plan, decode).value.value)
  {
  }
}

=== FILE: routes.dfy ===
/**
 The API server's two endpoints as transitions of the request store:
 `POST /submit` inserts a pending row and publishes a job message,
 `GET /status/{request_id}` reports the row and hands out a finished result
 exactly once.
 */
module Routes {
  import opened JsValue
  import opened Optional
  import opened RequestStore

  predicate IsStrField(m: map<string, Value>, key: string) {
    key in m && m[key].Str?
  }

  /** `interests` present and a list of strings. */
  predicate IsStrList(m: map<string, Value>) {
    "interests" in m && m["interests"].Arr? && forall e :: e in m["interests"].elems ==> e.Str?
  }

  /** The three fields `TripRequest` declares without a default, each a string. */
  predicate HasRequiredFields(m: map<string, Value>) {
    IsStrField(m, "start_location") && IsStrField(m, "start_date") && IsStrField(m, "end_date")
  }

  /**
   Validation of the request body against `TripRequest`: an object with
   string `start_location`, `start_date` and `end_date`, and `interests`
   either absent (then `[]`) or an array of strings. Other keys are ignored;
   anything else is rejected.
   */
  function ParseTripRequest(body: Value): (r: Option<TripRequest>)
    ensures r.Some? ==>
      && body.Obj?
      && "start_location" in body.props && body.props["start_location"] == Str(r.value.startLocation)
      && "start_date" in body.props && body.props["start_date"] == Str(r.value.startDate)
      && "end_date" in body.props && body.props["end_date"] == Str(r.value.endDate)
    ensures r.Some? && "interests" in body.props ==> body.props["interests"] == StrArray(r.value.interests)
    ensures r.Some? && "interests" !in body.props ==> r.value.interests == []
    ensures body.Obj? && HasRequiredFields(body.props) && "interests" !in body.props ==> r.Some?
    ensures body.Obj? && HasRequiredFields(body.props) && IsStrList(body.props) ==> r.Some?
    ensures body.Obj? && "interests" in body.props && !body.props["interests"].Arr? ==> r.None?
    ensures body.Obj? && !HasRequiredFields(body.props) ==> r.None?
    ensures !body.Obj? ==> r.None?
  {
    if !body.Obj? then None
    else
      var m := body.props;
      if !HasRequiredFields(m) then None
      else if "interests" !in m then
        Some(TripRequest(m["start_location"].s, m["start_date"].s, m["end_date"].s, []))
      else if m["interests"].Arr? && forall i :: 0 <= i < |m["interests"].elems| ==> m["interests"].elems[i].Str? then
        var interests := Strings(m["interests"].elems);
        assert m["interests"] == StrArray(interests);
        Some(TripRequest(m["start_location"].s, m["start_date"].s, m["end_date"].s, interests))
      else None
  }

  /** `trip.model_dump()`: the request's four fields as a JSON object. */
  function TripJson(t: TripRequest): map<string, Value> {
    map[
      "start_location" := Str(t.startLocation),
      "start_date" := Str(t.startDate),
      "end_date" := Str(t.endDate),
      "interests" := StrArray(t.interests)
    ]
  }

  /** Dumping a request and validating the dump gives the request back. */
  lemma ParseDump(t: TripRequest)
    ensures ParseTripRequest(Obj(TripJson(t))) == Some(t)
  {
    var m := TripJson(t);
    assert HasRequiredFields(m);
    assert Strings(m["interests"].elems) == t.interests;
  }

  /** The user every request is filed under. */
  const Guest := "guest"

  /** The job message: `request_id`, `user_id` and the dumped request. */
  function JobMessage(id: string, t: TripRequest): Value {
    Obj(TripJson(t)["request_id" := Str(id)]["user_id" := Str(Guest)])
  }

  datatype SubmitOutcome =
    | Accepted(store: Store, response: Value, message: Value)
    | Unprocessable     // the body failed validation: HTTP 422, nothing written
    | InsertFailed      // the generated id was already a key: the insert raises

  /**
   `submit_trip`, with `id` the freshly generated uuid. A valid body adds
   exactly one pending row under that id, owned by "guest", holding the
   request; publishes the id, "guest" and the four request fields; and
   answers `{"status": "submitted"}`, with no request id in it.
   */
  function SubmitTrip(store: Store, body: Value, id: string): (r: SubmitOutcome)
    ensures ParseTripRequest(body).None? <==> r.Unprocessable?
    ensures ParseTripRequest(body).Some? && id in store ==> r.InsertFailed?
    ensures ParseTripRequest(body).Some? && id !in store ==> r.Accepted?
    ensures r.Accepted? ==>
      && id !in store
      && r.store.Keys == store.Keys + {id}
      && r.store[id] == Row(Guest, Pending, ParseTripRequest(body).value, None)
      && (forall k :: k in store ==> r.store[k] == store[k])
    ensures r.Accepted? ==> r.response == Single("status", Str("submitted")) && "request_id" !in r.response.props
    ensures r.Accepted? ==>
      var t := ParseTripRequest(body).value;
      && r.message.Obj?
      && r.message.props.Keys == {"request_id", "user_id", "start_location", "start_date", "end_date", "interests"}
      && r.message.props["request_id"] == Str(id)
      && r.message.props["user_id"] == Str(Guest)
      && r.message.props["start_location"] == Str(t.startLocation)
      && r.message.props["start_date"] == Str(t.startDate)
      && r.message.props["end_date"] == Str(t.endDate)
      && r.message.props["interests"] == StrArray(t.interests)
  {
    match ParseTripRequest(body)
    case None => Unprocessable
    case Some(t) =>
      match InsertRequest(store, id, Guest, t)
      case None => InsertFailed
      case Some(s) => Accepted(s, Single("status", Str("submitted")), JobMessage(id, t))
  }

  /**
   `submit_trip` answering with the new request's id as well, the reply the
   page's submit handler and the server's own test look for. Store and job
   message are exactly those of `SubmitTrip`.
   */
  function SubmitTripWithId(store: Store, body: Value, id: string): (r: SubmitOutcome)
    ensures r.Accepted? <==> SubmitTrip(store, body, id).Accepted?
    ensures r.Unprocessable? <==> SubmitTrip(store, body, id).Unprocessable?
    ensures r.Accepted? ==>
      && r.store == SubmitTrip(store, body, id).store
      && r.message == SubmitTrip(store, body, id).message
    ensures r.Accepted? ==>
      && r.response.Obj? && r.response.props.Keys == {"status", "request_id"}
      && r.response.props["status"] == Str("submitted") && r.response.props["request_id"] == Str(id)
  {
    match SubmitTrip(store, body, id)
    case Accepted(s, response, message) => Accepted(s, Obj(response.props["request_id" := Str(id)]), message)
    case other => other
  }

  /** What `get_status` answers. */
  datatype StatusResult =
    | Found(body: Value)    // HTTP 200 with this JSON body
    | NotFound              // HTTPException(404)
    | ServerError           // a done row without a result: `json.loads(None)` raises

  /** FastAPI's body for a bare `HTTPException(404)`. */
  const NotFoundBody: Value := Single("detail", Str("Not Found"))

  datatype StatusReply = StatusReply(result: StatusResult, store: Store)

  /**
   `get_status`. No row: 404. A row not yet done: its status alone, store
   untouched. A done row: its result document as the whole body (no
   `status` field is added) and the row is deleted.
   */
  function GetStatus(store: Store, id: string): (r: StatusReply)
    ensures id !in store ==> r == StatusReply(NotFound, store)
    ensures id in store && store[id].status != Done ==>
      r == StatusReply(Found(Single("status", Str(store[id].status))), store)
    ensures id in store && store[id].status == Done && store[id].result.Some? ==>
      r.result == Found(store[id].result.value) && r.store == ClearResponse(store, id)
    ensures id in store && store[id].status == Done && store[id].result.None? ==>
      r == StatusReply(ServerError, store)
  {
    match GetRequestById(store, id)
    case None => StatusReply(NotFound, store)
    case Some(row) =>
      if row.status != Done then StatusReply(Found(Single("status", Str(row.status))), store)
      else
        match row.result
        case None => StatusReply(ServerError, store)
        case Some(doc) => StatusReply(Found(doc), ClearResponse(store, id))
  }

  /** A finished result can be read once: asking again straight away is a 404. */
  lemma ReadOnce(store: Store, id: string)
    requires id in store && store[id].status == Done && store[id].result.Some?
    ensures GetStatus(store, id).result == Found(store[id].result.value)
    ensures GetStatus(GetStatus(store, id).store, id).result == NotFound
  {
  }

  /** Polling a row that is not done leaves the store as it was, however often it is done. */
  lemma PendingPollIsPure(store: Store, id: string)
    requires id in store && store[id].status != Done
    ensures GetStatus(store, id).store == store
    ensures GetStatus(store, id).result.body.props["status"] == Str(store[id].status)
  {
  }

  /**
   Right after a submit the new request reads as pending, and the response
   the client got gives it no way to ask: it holds only `status`.
   */
  lemma SubmitThenStatus(store: Store, body: Value, id: string)
    requires SubmitTrip(store, body, id).Accepted?
    ensures var a := SubmitTrip(store, body, id);
      && GetStatus(a.store, id) == StatusReply(Found(Single("status", Str(Pending))), a.store)
      && a.response.props.Keys == {"status"}
  {
  }
}

=== FILE: seqs.dfy ===
/**
 Order-preserving selection from a sequence, stated without reference to any
 particular filtering algorithm, so that the page's `filter` calls can be
 checked against it.
 */
module Seqs {

  /** `a` can be obtained from `b` by deleting elements. */
  ghost predicate IsSubsequence<T>(a: seq<T>, b: seq<T>)
    decreases |b|
  {
    if |a| == 0 then true
    else if |b| == 0 then false
    else (a[0] == b[0] && IsSubsequence(a[1..], b[1..])) || IsSubsequence(a, b[1..])
  }

  /**
   `r` is `xs` with every element failing `keep` removed: a subsequence of
   `xs` that holds each kept value exactly as often as `xs` does and no other
   value.
   */
  ghost predicate IsFilterOf<T(!new)>(r: seq<T>, xs: seq<T>, keep: T -> bool) {
    && IsSubsequence(r, xs)
    && forall x :: multiset(r)[x] == (if keep(x) then multiset(xs)[x] else 0)
  }

  lemma AppendAssoc<T>(x: seq<T>, y: seq<T>, z: seq<T>)
    ensures x + (y + z) == (x + y) + z
  {
  }

  lemma {:induction false} SubsequenceMultiset<T>(a: seq<T>, b: seq<T>)
    requires IsSubsequence(a, b)
    ensures multiset(a) <= multiset(b)
    decreases |b|
  {
    if |a| == 0 {
    } else {
      assert b == [b[0]] + b[1..];
      if a[0] == b[0] && IsSubsequence(a[1..], b[1..]) {
        SubsequenceMultiset(a[1..], b[1..]);
        assert a == [a[0]] + a[1..];
      } else {
        SubsequenceMultiset(a, b[1..]);
      }
    }
  }

  lemma SubsequenceOfEmpty<T>(a: seq<T>)
    requires IsSubsequence(a, [])
    ensures a == []
  {
  }

  /** The filter specification determines its result: there is only one. */
  lemma {:induction false} FilterUnique<T(!new)>(r1: seq<T>, r2: seq<T>, xs: seq<T>, keep: T -> bool)
    requires IsFilterOf(r1, xs, keep)
    requires IsFilterOf(r2, xs, keep)
    ensures r1 == r2
    decreases |xs|
  {
    if |xs| == 0 {
      SubsequenceOfEmpty(r1);
      SubsequenceOfEmpty(r2);
    } else {
      var x, t := xs[0], xs[1..];
      assert xs == [x] + t;
      var r1' := DropHead(r1, xs, keep);
      var r2' := DropHead(r2, xs, keep);
      FilterUnique(r1', r2', t, keep);
      if keep(x) {
        assert r1 == [x] + r1' && r2 == [x] + r2';
      } else {
        assert r1 == r1' && r2 == r2';
      }
    }
  }

  /**
   Peeling the first element of `xs` off a filter result leaves a filter
   result for the rest: the head goes with it exactly when it is kept.
   */
  lemma DropHead<T(!new)>(r: seq<T>, xs: seq<T>, keep: T -> bool) returns (r': seq<T>)
    requires |xs| > 0
    requires IsFilterOf(r, xs, keep)
    ensures IsFilterOf(r', xs[1..], keep)
    ensures keep(xs[0]) ==> r == [xs[0]] + r'
    ensures !keep(xs[0]) ==> r == r'
  {
    var x, t := xs[0], xs[1..];
    assert xs == [x] + t;
    assert multiset(xs) == multiset{x} + multiset(t);
    if keep(x) {
      assert multiset(r)[x] == multiset(xs)[x] > multiset(t)[x];
      if IsSubsequence(r, t) {
        SubsequenceMultiset(r, t);
        assert false;
      }
      assert |r| > 0 && r[0] == x && IsSubsequence(r[1..], t);
      r' := r[1..];
      assert r == [x] + r';
      assert multiset(r) == multiset{x} + multiset(r');
      forall y
        ensures multiset(r')[y] == (if keep(y) then multiset(t)[y] else 0)
      {
        assert multiset(r)[y] == (if keep(y) then multiset(xs)[y] else 0);
      }
    } else {
      assert multiset(r)[x] == 0;
      assert |r| > 0 ==> r[0] in multiset(r);
      assert IsSubsequence(r, t);
      r' := r;
      forall y
        ensures multiset(r')[y] == (if keep(y) then multiset(t)[y] else 0)
      {
        assert multiset(r)[y] == (if keep(y) then multiset(xs)[y] else 0);
      }
    }
  }

  /** The first element a filter keeps is the first kept element of the input. */
  lemma {:induction false} FilterHead<T(!new)>(r: seq<T>, xs: seq<T>, keep: T -> bool, i: nat)
    requires IsFilterOf(r, xs, keep)
    requires i < |xs| && keep(xs[i])
    requires forall j :: 0 <= j < i ==> !keep(xs[j])
    ensures |r| > 0 && r[0] == xs[i]
    decreases i
  {
    var r' := DropHead(r, xs, keep);
    if i > 0 {
      FilterHead(r', xs[1..], keep, i - 1);
    }
  }

  /** A filter that keeps nothing of its input is empty. */
  lemma FilterNone<T(!new)>(r: seq<T>, xs: seq<T>, keep: T -> bool)
    requires IsFilterOf(r, xs, keep)
    requires forall j :: 0 <= j < |xs| ==> !keep(xs[j])
    ensures r == []
  {
  }
}

=== FILE: task_processor.dfy ===
/**
 The worker's `process_task`: read the job message, build the prompt, ask
 the language model for a plan, attach a Google route, and mark the request
 done with the plan as its result.

 The two remote calls are parameters: `llm` is what `json.loads` makes of
 the model's reply to a prompt, `directions` what the directions lookup for
 a destination gives. `show` is Python's `str()` on a non-string JSON value;
 nothing about it is assumed. An uncaught exception ends the task with
 nothing written (the consumer loop logs it and moves on).
 */
module TaskProcessor {
  import opened JsValue
  import opened Optional
  import opened RequestStore

  /** Python truthiness of a JSON value: `None`, `False`, zero and empty containers are false. */
  predicate PyTruthy(v: Value) {
    match v
    case Undefined => false
    case Null => false
    case Bool(b) => b
    case Num(n) => n != 0.0
    case Str(s) => s != ""
    case Arr(xs) => xs != []
    case Obj(m) => m != map[]
  }

  /** `", ".join(items)` */
  function Join(items: seq<string>): (r: string)
    ensures |items| == 0 ==> r == ""
    ensures |items| == 1 ==> r == items[0]
    decreases |items|
  {
    if |items| == 0 then ""
    else if |items| == 1 then items[0]
    else items[0] + ", " + Join(items[1..])
  }

  /** Joining two non-empty lists puts one separator between the two joins. */
  lemma {:induction false} JoinAppend(a: seq<string>, b: seq<string>)
    requires |a| > 0 && |b| > 0
    ensures Join(a + b) == Join(a) + ", " + Join(b)
    decreases |a|
  {
    if |a| == 1 {
      assert (a + b)[1..] == b;
    } else {
      assert (a + b)[1..] == a[1..] + b;
      JoinAppend(a[1..], b);
    }
  }

  /** The joined text is as long as the items plus one separator between each pair. */
  lemma {:induction false} JoinLength(items: seq<string>)
    requires |items| > 0
    ensures |Join(items)| == TotalLength(items) + 2 * (|items| - 1)
    decreases |items|
  {
    if |items| > 1 {
      JoinLength(items[1..]);
    }
  }

  function TotalLength(items: seq<string>): nat
    decreases |items|
  {
    if |items| == 0 then 0 else |items[0]| + TotalLength(items[1..])
  }

  /** A Python string iterates as its one-character strings. */
  function Chars(s: string): (r: seq<string>)
    ensures |r| == |s| && forall i :: 0 <= i < |s| ==> r[i] == [s[i]]
  {
    seq(|s|, i requires 0 <= i < |s| => [s[i]])
  }

  const NoInterests := "no specific interests"

  /**
   `interests_str`: "no specific interests" for a falsy (or missing)
   `interests`; otherwise the comma-joined items, where a string is joined
   character by character. A number or boolean is not iterable and a list
   with a non-string item cannot be joined: both raise, shown as None.
   */
  function InterestsText(interests: Value): (r: Option<string>)
    ensures !PyTruthy(interests) ==> r == Some(NoInterests)
    ensures interests.Arr? && |interests.elems| > 0 ==>
      (r.Some? <==> forall i :: 0 <= i < |interests.elems| ==> interests.elems[i].Str?)
    ensures interests.Arr? && r.Some? && |interests.elems| > 0 ==> r.value == Join(Strings(interests.elems))
    ensures interests.Str? && interests.s != "" ==> r == Some(Join(Chars(interests.s)))
    ensures interests.Num? || interests.Bool? || interests.Obj? ==> (r.Some? <==> !PyTruthy(interests))
  {
    if !PyTruthy(interests) then Some(NoInterests)
    else
      match interests
      case Str(s) => Some(Join(Chars(s)))
      case Arr(xs) =>
        if forall i :: 0 <= i < |xs| ==> xs[i].Str? then Some(Join(Strings(xs))) else None
      case _ => None
  }

  /** A non-empty list of strings is joined as given, each item appearing in order. */
  lemma InterestsOfList(items: seq<string>)
    requires |items| > 0
    ensures InterestsText(StrArray(items)) == Some(Join(items))
  {
    var xs := StrArray(items).elems;
    assert PyTruthy(StrArray(items)) by {
      assert xs[0] == Str(items[0]);
    }
    assert forall i :: 0 <= i < |xs| ==> xs[i].Str?;
    assert Strings(xs) == items;
  }

  /** Python's `str()` as the f-string applies it: a string is itself, anything else is rendered by `show`. */
  function PyStr(v: Value, show: Value -> string): (r: string)
    ensures v.Str? ==> r == v.s
  {
    if v.Str? then v.s else show(v)
  }

  const Instructions := "Return a JSON object with a `days` array; each day has `description`, `coords` (lat/lng), and `image_url`."

  /** The prompt's opening: "Plan a trip to " and the destination. */
  function Opening(destination: string): string {
    "Plan a trip to " + destination
  }

  /** The dates and the interests text, between the opening and the instructions. */
  function Details(startDate: string, endDate: string, interests: string): string {
    " from " + startDate + " to " + endDate + " with interests: " + interests + ". "
  }

  /** The prompt sent to the model. */
  function Prompt(destination: string, startDate: string, endDate: string, interests: string): (r: string)
    ensures |r| == |destination| + |startDate| + |endDate| + |interests| + 44 + |Instructions|
  {
    Opening(destination) + Details(startDate, endDate, interests) + Instructions
  }

  /**
   The template's order: destination, " from ", start date, " to ", end
   date, " with interests: ", interests text, ". " and the instructions, each
   at the offset the lengths before it fix.
   */
  lemma PromptShape(destination: string, startDate: string, endDate: string, interests: string)
    ensures var p := Prompt(destination, startDate, endDate, interests);
      var d, sd, ed := |destination|, |startDate|, |endDate|;
      && p[..15 + d] == Opening(destination)
      && p[15 + d..21 + d] == " from "
      && p[21 + d..21 + d + sd] == startDate
      && p[21 + d + sd..25 + d + sd] == " to "
      && p[25 + d + sd..25 + d + sd + ed] == endDate
      && p[25 + d + sd + ed..42 + d + sd + ed] == " with interests: "
      && p[42 + d + sd + ed..42 + d + sd + ed + |interests|] == interests
      && p[|p| - |Instructions| - 2..|p| - |Instructions|] == ". "
      && p[|p| - |Instructions|..] == Instructions
  {
  }

  /** What `json.loads(fetch_plan_from_openai(prompt))` comes to. */
  datatype LlmReply =
    | Parsed(doc: Value)           // the reply is a JSON document
    | InvalidJson(details: string) // JSONDecodeError, with `str(e)`
    | LlmFailed                    // the call itself raised, or the reply was not text

  /** What `get_google_route(destination, destination)` comes to. */
  datatype RouteFetch = Route(route: Value) | RouteFailed

  /** The plan recorded when the reply is not JSON. */
  function ErrorPlan(details: string): (r: Value)
    ensures r.Obj? && r.props.Keys == {"error", "details"}
    ensures r.props["error"] == Str("Invalid JSON from OpenAI") && r.props["details"] == Str(details)
  {
    Obj(map["error" := Str("Invalid JSON from OpenAI"), "details" := Str(details)])
  }

  /**
   `plan["google_route"] = route`, or `None` when the lookup raised. Only a
   dict takes the assignment: on any other document both the assignment and
   the fallback in the handler raise, and the task ends.
   */
  function AttachRoute(plan: Value, rf: RouteFetch): (r: Eval<Value>)
    ensures r.Ok? <==> plan.Obj?
    ensures r.Ok? ==> r.value.Obj? && r.value.props.Keys == plan.props.Keys + {"google_route"}
    ensures r.Ok? ==> r.value.props["google_route"] == (if rf.Route? then rf.route else Null)
    ensures r.Ok? ==> forall k :: k in plan.props && k != "google_route" ==> r.value.props[k] == plan.props[k]
  {
    if !plan.Obj? then Throws
    else Ok(Obj(plan.props["google_route" := if rf.Route? then rf.route else Null]))
  }

  /** The five keys `process_task` reads with `message[...]`. */
  predicate HasJobKeys(m: map<string, Value>) {
    "request_id" in m && "user_id" in m && "start_location" in m && "start_date" in m && "end_date" in m
  }

  /** `message.get("interests", [])` */
  function InterestsOf(m: map<string, Value>): Value {
    if "interests" in m then m["interests"] else Arr([])
  }

  /**
   The plan the task writes for a message, or Throws when an exception
   escapes before the write: the message is not a dict or lacks a key, the
   interests cannot be joined, the model call fails, or the reply is JSON
   but not an object.
   */
  function PlanFor(message: Value, show: Value -> string, llm: string -> LlmReply, directions: Value -> RouteFetch): (r: Eval<Value>)
    ensures r.Ok? ==> message.Obj? && HasJobKeys(message.props) && InterestsText(InterestsOf(message.props)).Some?
    ensures message.Obj? && HasJobKeys(message.props) && InterestsText(InterestsOf(message.props)).Some? ==>
      var m := message.props;
      var reply := llm(Prompt(PyStr(m["start_location"], show), PyStr(m["start_date"], show),
                              PyStr(m["end_date"], show), InterestsText(InterestsOf(m)).value));
      var rf := directions(m["start_location"]);
      && (reply.LlmFailed? ==> r.Throws?)
      && (reply.InvalidJson? ==> r == AttachRoute(ErrorPlan(reply.details), rf) && r.Ok?)
      && (reply.Parsed? ==> r == AttachRoute(reply.doc, rf))
    ensures r.Ok? ==> r.value.Obj? && "google_route" in r.value.props
  {
    if !message.Obj? || !HasJobKeys(message.props) then Throws
    else
      var m := message.props;
      match InterestsText(InterestsOf(m))
      case None => Throws
      case Some(interests) =>
        var prompt := Prompt(PyStr(m["start_location"], show), PyStr(m["start_date"], show),
                             PyStr(m["end_date"], show), interests);
        var rf := directions(m["start_location"]);
        match llm(prompt)
        case LlmFailed => Throws
        case InvalidJson(details) => AttachRoute(ErrorPlan(details), rf)
        case Parsed(doc) => AttachRoute(doc, rf)
  }

  /**
   The UPDATE: the row with this id becomes done with the plan as its
   result; its owner and payload stay. No row with the id: nothing changes.
   */
  function MarkDone(store: Store, id: string, plan: Value): (r: Store)
    ensures r.Keys == store.Keys
    ensures id in store ==> r[id] == store[id].(status := Done, result := Some(plan))
    ensures forall k :: k in store && k != id ==> r[k] == store[k]
  {
    if id in store then store[id := store[id].(status := Done, result := Some(plan))] else store
  }

  /** Writing the same result twice is writing it once. */
  lemma MarkDoneIdempotent(store: Store, id: string, plan: Value)
    ensures MarkDone(MarkDone(store, id, plan), id, plan) == MarkDone(store, id, plan)
  {
  }

  /** A later write replaces an earlier one: only the last result counts. */
  lemma MarkDoneOverwrites(store: Store, id: string, first: Value, second: Value)
    ensures MarkDone(MarkDone(store, id, first), id, second) == MarkDone(store, id, second)
  {
  }

  datatype TaskOutcome = Completed(store: Store) | Aborted

  /**
   `process_task`. The request id is compared with the text key column: a
   string selects its row, `null` selects none, any other JSON value is a
   type error in the query and ends the task.
   */
  function ProcessTask(store: Store, message: Value, show: Value -> string,
                       llm: string -> LlmReply, directions: Value -> RouteFetch): (r: TaskOutcome)
    ensures PlanFor(message, show, llm, directions).Throws? ==> r.Aborted?
    ensures r.Completed? ==> PlanFor(message, show, llm, directions).Ok? && r.store.Keys == store.Keys
    ensures r.Completed? ==> forall k :: k in store && Str(k) != message.props["request_id"] ==> r.store[k] == store[k]
    ensures PlanFor(message, show, llm, directions).Ok? && message.props["request_id"].Str? ==>
      r == Completed(MarkDone(store, message.props["request_id"].s, PlanFor(message, show, llm, directions).value))
    ensures PlanFor(message, show, llm, directions).Ok? && message.props["request_id"].Null? ==> r == Completed(store)
    ensures PlanFor(message, show, llm, directions).Ok? ==>
      (r.Aborted? <==> !message.props["request_id"].Str? && !message.props["request_id"].Null?)
  {
    match PlanFor(message, show, llm, directions)
    case Throws => Aborted
    case Ok(plan) =>
      match message.props["request_id"]
      case Str(id) => Completed(MarkDone(store, id, plan))
      case Null => Completed(store)
      case _ => Aborted
  }
}
